=== FILE: README.md ===
# mysql-mcp-server, modelled in Dafny

This project models the core of `mysql-mcp-server`, a Model Context Protocol
(MCP) server that exposes a MySQL database through four tools:
`execute_query`, `get_databases`, `get_tables` and `describe_table`.

The model covers these parts:

- **Configuration layering** (`Config`). Defaults come first, then an optional
  configuration file, then environment variables, then command-line arguments.
  The two getters fall back to 30000 ms and 1000 rows.
- **Connection manager** (`Connection`). It holds at most one pool, a
  connected flag and a per-session statement timeout. It runs over an
  abstract driver whose every call may succeed or fail.
- **MCP server** (`McpServer`). The tool registry, the `executeTool`
  dispatcher and its `{result, error?}` envelope, the four handlers, and the
  server definition.
- **Stdio transport** (`Framing`, `StdioServer`). Newline-delimited JSON
  framing of standard input, classification of each message, the frame
  written for it, and the `server_info` frame sent at start-up.
- **HTTP transport** (`HttpServer`). The status code and body for `GET /`,
  `POST /tools` and `GET /resources/:uri(*)`, with the error middleware
  behind them.

`Js` holds the JavaScript semantics the code relies on: JSON-shaped values,
truthiness, property reads, `trim`, `parseInt`, `String(v)` and
`slice(0, end)`. `Types` holds the records of `src/core/types.ts` and their
JSON shapes. `Wrappers` holds `Option` and `Result`.

Everything is a pure function over immutable values:

- **Connection state.** The manager's state `Conn` is threaded through each
  operation.
- **Driver calls.** The driver is an oracle `Driver = (nat, DriverCall) -> Reply`:
  the reply to the n-th call the manager ever makes. `Conn.trace` records
  every call made.
- **Leak accounting.** Counters for acquired and released connections, and
  for pools created and ended, make "no connection leaks" a predicate on the
  state (`Connection.Valid`).
- **Transports.** They receive `executeTool` as a parameter of type
  `McpServer.Executor`, together with the predicate `McpServer.Lawful`. This
  states what they rely on from it: it never rejects, it keeps the setup,
  and it only extends the connection history. `McpServer.ServerExecutor`
  proves that the server's own `ExecuteTool` meets it.
- **JSON text.** `JSON.parse` and `JSON.stringify` are function parameters
  (`parse`, `stringify`).

Behaviour of the code that is easy to misread, which the model follows:

- `executeQuery` connects lazily when there is no pool. It does not fail with
  "not connected" (`Connection.ExecuteQueryConnectsLazily`).
- A failed `initialize` leaves the new pool in place with the manager marked
  not connected (`Connection.Initialize`).
- After truncation, `totalRows` records the number of rows kept, not the
  number fetched (`McpServer.Truncate`).
- The registry holds exactly four tools (src/core/mcp-server.ts:56-122).
- All of a chunk's parse-error frames come before its responses, because
  `processBuffer` sends them synchronously before any message is handled
  (`StdioServer.OnDataFrames`).

## Model

| member | source | states |
|---|---|---|
| Js.Lookup | src/core/mcp-server.ts:150-151 | A property read finds the first member with that key. It is undefined exactly when no member has the key, and a value it finds is stored under that key. |
| Js.Prop | src/utils/stdio-server-utils.ts:85-89 | Reading a property of anything but an object yields undefined. On an object it yields the member lookup. |
| Js.Trim | src/core/mcp-server.ts:179 | `trim()` yields the empty string exactly when the input is all whitespace. Its result neither starts nor ends with whitespace and is no longer than the input. |
| Js.TrimStrips | src/core/mcp-server.ts:179 | The result of `trim()` is the part of the input between a whitespace-only prefix and a whitespace-only suffix. |
| Js.ParseInt | src/config/config.ts:123-128 | `parseInt(s, 10)` is NaN exactly when no decimal digit follows the leading whitespace and the optional sign. |
| Js.ParseIntRoundTrip | src/config/config.ts:124 | `parseInt` reads back every integer that `String` writes. |
| Js.NatToString | src/core/mcp-server.ts:156 | The decimal numeral interpolated for a number is non-empty, all digits, and denotes that number. It starts with `0` only for zero, and is one digit long exactly below ten. |
| Js.NatToStringUnique | src/core/mcp-server.ts:156 | A digit string without a leading zero is the numeral of its own value, so each number has exactly one numeral. |
| Js.SliceEnd | src/core/mcp-server.ts:196 | `slice(0, end)` keeps `min(end, len)` elements for a non-negative end. A negative end counts back from the length and stops at zero. |
| Js.Display | src/core/mcp-server.ts:156 | Template-literal conversion of a value that may be undefined: `undefined`, `null`, `true`/`false`, the decimal numeral, the string itself, array items joined by commas with null items written empty, and `[object Object]`. It is used for "Unknown tool: " and for the SQL text built from arguments. |
| Js.AsciiLower | src/config/config.ts:120 | `toLowerCase()` keeps the length and leaves no capital `A`-`Z`. Each capital becomes the letter 32 code points above it, and every other character is kept in place. |
| Types.ToolResponseToJson | src/core/types.ts:30-33 | The envelope carries `result`, and carries `error` exactly when an error message is set. |
| Types.ResourceResponseToJson | src/core/types.ts:39-42 | The resource envelope carries `content`, and carries `error` exactly when an error message is set. |
| Types.ServerDefinitionToJson | src/core/types.ts:18-23 | The server definition object carries the name, the version, the tool definitions in order and one entry per resource definition. |
| Types.QueryResultToJson | src/core/types.ts:71-81 | The `data` member holds the result rows, in order, as objects. `fields`, `metadata`, `truncated` and `totalRows` are present exactly when set, and then hold the result's values. |
| Types.ResultMembersLookup | src/core/types.ts:71-81 | The result object has `data`, each optional key exactly when its value is set, and no other key. |
| Config.MergeConfig | src/config/config.ts:135-162 | Every field takes the file's value when the file supplies one and keeps its prior value otherwise. This covers the server port and host, all eight `mysql` keys, `debug`, `queryTimeout` and `maxResultSize`. Without a `server` or `mysql` object, that whole object is kept. |
| Config.LoadFromEnvironment | src/config/config.ts:93-129 | Each of `MCP_SERVER_PORT`, `MCP_SERVER_HOST`, `DB_HOST`, `DB_PORT`, `DB_USER`, `DB_PASSWORD`, `DB_DATABASE`, `QUERY_TIMEOUT` and `MAX_RESULT_SIZE` replaces its field when set and non-empty, with ports and limits read by `parseInt`. Otherwise the field is kept. Debugging is on exactly when it already was or DEBUG is whitelisted, so DEBUG never switches it off. The pool limit, time zone and charset are never touched. |
| Config.DebugCaseInsensitive | src/config/config.ts:120 | Two DEBUG values that agree after lower-casing are whitelisted alike. |
| Config.DebugExamples | src/config/config.ts:120-122 | `TRUE` and `Yes` switch debugging on. `false` and `0` keep the prior setting. |
| Config.ApplyCommandLineArgs | src/config/config.ts:168-204 | `port`, `host`, `dbHost`, `dbPort`, `dbUser`, `dbPassword` and `dbName` replace their fields only when truthy, so an empty password keeps the prior one. `debug`, `queryTimeout` and `maxResultSize` apply whenever they are defined. The pool limit, time zone and charset are never touched, and empty arguments change nothing. |
| Config.GetQueryTimeout | src/config/config.ts:223-225 | The getter returns the stored timeout when it is truthy and 30000 otherwise, so it never returns 0. |
| Config.GetMaxResultSize | src/config/config.ts:230-232 | The getter returns the stored row limit when it is truthy and 1000 otherwise, so it never returns 0. |
| Config.LastSet | src/config/config.ts:47-55 | The precedence rule used as a reference: the last layer that sets a value wins, else the default. |
| Config.NoFileIsEmptyFile | src/config/config.ts:47-55 | Reading no configuration file is the same as merging a file that defines no key. |
| Config.ThreeLayers | src/config/config.ts:47-55 | Three layers applied in turn, each replacing a field only when it supplies a value, leave the last value supplied. |
| Config.ServerPortPrecedence | src/config/config.ts:47-55 | The server port comes from the latest of the file, `MCP_SERVER_PORT`, and a truthy `port` argument, else 3000. |
| Config.ServerHostPrecedence | src/config/config.ts:47-55 | The server host comes from the latest of the file, `MCP_SERVER_HOST`, and a non-empty `host` argument, else `localhost`. |
| Config.HostPrecedence | src/config/config.ts:47-55 | The resolved database host comes from the latest of the file, `DB_HOST`, and a non-empty `dbHost` argument. |
| Config.MySQLPortPrecedence | src/config/config.ts:47-55 | The database port comes from the latest of the file, `DB_PORT`, and a truthy `dbPort` argument, else 3306. |
| Config.UserPrecedence | src/config/config.ts:47-55 | The database user comes from the latest of the file, `DB_USER`, and a non-empty `dbUser` argument, else `root`. |
| Config.PasswordPrecedence | src/config/config.ts:47-55 | The resolved password follows the same precedence, and an empty later value never erases an earlier one. |
| Config.DatabasePrecedence | src/config/config.ts:47-55 | The default database comes from the latest of the file, `DB_DATABASE`, and a non-empty `dbName` argument, else none. |
| Config.FileOnlyFields | src/config/config.ts:47-55 | The pool limit, time zone and character set come from the configuration file alone. |
| Config.DebugPrecedence | src/config/config.ts:47-55 | Debugging follows the latest layer that speaks, and the environment can only say "on". |
| Config.QueryTimeoutPrecedence | src/config/config.ts:47-55 | The stored query timeout comes from the latest layer that defines it, with the environment value read by `parseInt`. |
| Config.MaxResultSizePrecedence | src/config/config.ts:47-55 | The stored row limit comes from the latest layer that defines it, with the environment value read by `parseInt`. |
| Config.DefaultsReported | src/config/config.ts:15-30 | With no file, environment or arguments, the configuration is the defaults: localhost:3000 and localhost:3306, debugging off, and getters of 30000 and 1000. |
| Config.InitialConfig | src/config/config.ts:47-55 | Construction starts from the defaults, merges the file when one was read, then applies the environment. The precedence lemmas above state the outcome field by field. |
| Config.Resolve | src/config/config.ts:168-204 | The command-line layer applied on top of the constructed configuration. This is the configuration that the precedence lemmas describe. |
| Connection.NewConnection | src/mysql/connection.ts:18-21 | A new manager has no pool, is not connected, has called nothing, and is balanced. |
| Connection.PoolOptionsOf | src/mysql/connection.ts:32-42 | The credentials pass through unchanged. The pool limit, time zone and charset fall back to 10, `local` and `utf8mb4` when falsy. |
| Connection.SessionTimeoutMs | src/mysql/connection.ts:101 | The session timeout is a multiple of 1000 that is at most the query timeout and more than the query timeout minus 1000. |
| Connection.SessionTimeoutUnique | src/mysql/connection.ts:101 | Only one value meets that contract, so it is the floor to whole seconds. |
| Connection.Ping | src/mysql/connection.ts:69-81 | Without a pool it fails with "Connection pool not initialized" and calls nothing. Otherwise it requests a connection and pings it, and succeeds exactly when both succeed. A failure carries the message of the call that failed, and a borrowed connection is given back either way. |
| Connection.Initialize | src/mysql/connection.ts:26-56 | It does nothing when a pool exists. Otherwise it first creates the pool from the configured options and keeps it, marks the manager connected exactly when it succeeds, and prefixes failures with "MySQL connection failed: ". Balance is kept. |
| Connection.InitializePings | src/mysql/connection.ts:26-56 | From no pool, connecting succeeds exactly when pool creation, the connection request and the ping all succeed, and the calls are exactly those three. A failure is the prefix followed by the message of the first call that failed. |
| Connection.ConnectPool | src/mysql/connection.ts:44-55 | Once the pool exists, the manager keeps it, is marked connected exactly when the ping succeeds, and a failure carries the "MySQL connection failed: " prefix. Balance is kept and no statement runs. |
| Connection.ConnectPoolAnswers | src/mysql/connection.ts:46-55 | With the pool in place, connecting succeeds exactly when the connection request and the ping succeed, after exactly those two calls; a failure is the prefix and the failing call's message. |
| Connection.ConnectedHasPool | src/mysql/connection.ts:62-64 | In a balanced state, a manager that reports itself connected holds a pool. |
| Connection.IsConnectedToDatabase | src/mysql/connection.ts:62-64 | Reports the connected flag. `Initialize` sets it exactly when connecting succeeds and `Close` clears it, and `ConnectedHasPool` shows that a valid manager reporting true holds a pool. |
| Connection.ShapeReply | src/mysql/connection.ts:106-122 | A row set gives its rows and fields. Any other reply gives no rows and the statement's counters, with `changedRows` only where the packet has it. |
| Connection.ExecuteQuery | src/mysql/connection.ts:89-129 | Without a pool it first creates one. A borrowed connection is always given back. Success means the last call ran exactly this statement and the result is its shaped reply. The only statement added to the history is this one. |
| Connection.ConnectThenQuery | src/mysql/connection.ts:90-96 | Without a pool, the query's first call creates the pool. Success needs a pool and means the last call ran this statement, whose shaped reply is the result. Balance and validity are kept. |
| Connection.ExecuteQueryOnPool | src/mysql/connection.ts:90-98 | With a pool, a query goes straight to requesting a connection from it, with no connection attempt first. |
| Connection.ExecuteQuerySucceeds | src/mysql/connection.ts:98-122 | With a pool, when the driver grants a connection, accepts the session timeout and accepts the statement, the query succeeds with the statement's shaped reply, after exactly those three calls. |
| Connection.ExecuteQuerySetFailure | src/mysql/connection.ts:98-127 | A refused session timeout fails the query with "Query failed: <message>" before the statement runs, and the connection is given back. |
| Connection.QueryOnPool | src/mysql/connection.ts:98-128 | With a pool, a connection is requested first. A failed request surfaces unwrapped and borrows nothing. Otherwise the next call sets the session timeout, the connection is given back exactly once, and the answer is decided by the two following replies as for RunBorrowed. |
| Connection.RunBorrowed | src/mysql/connection.ts:99-128 | On a borrowed connection it sets the session timeout first, runs the statement, and gives the connection back exactly once, whatever happened. A refused timeout or statement fails with "Query failed: " and the driver's message; when both are accepted the answer is the statement's shaped reply. |
| Connection.ExecuteQueryFailure | src/mysql/connection.ts:123-127 | A statement the driver rejects fails with "Query failed: <message>", and the connection is given back. |
| Connection.ExecuteQueryConnectsLazily | src/mysql/connection.ts:90-96 | Without a pool, a query first initializes. If that fails, the query fails with the connection error and runs nothing; otherwise it proceeds as a query on the new pool. |
| Connection.Close | src/mysql/connection.ts:152-159 | Without a pool nothing changes. With one, the pool is ended, and on success it is forgotten and the manager is marked not connected. Close succeeds exactly when the driver ends the pool; otherwise it fails with the driver's message. Balance is kept. |
| Connection.CloseIdempotent | src/mysql/connection.ts:152-159 | After a successful close, closing again changes nothing. |
| McpServer.RegisterTool | src/core/mcp-server.ts:129-135 | Registering binds the name to its handler and keeps published names and handler keys equal. |
| McpServer.RegisterToolPublishes | src/core/mcp-server.ts:129-135 | Registering appends exactly the new name to the published names. |
| McpServer.Definitions | src/core/mcp-server.ts:56-122 | The four definitions are named `execute_query`, `get_databases`, `get_tables` and `describe_table`, in that order. |
| McpServer.RegisterTools | src/core/mcp-server.ts:56-122 | The registry publishes exactly those four tools in that order, and its handler keys equal the published names. |
| McpServer.GetServerDefinition | src/core/mcp-server.ts:140-142 | The definition carries name `mysql-mcp-server`, version `1.0.0` and no resources. On a constructed server it lists the four registered tools. |
| McpServer.LookupHandler | src/core/mcp-server.ts:151 | A handler is found exactly when the tool is a string naming a registered tool, and it is the handler registered under that name. Each of the four names finds its own tool's handler. |
| McpServer.LookupHandlerExamples | src/core/mcp-server.ts:151-158 | Lookup is by exact name: `execute_query` finds its handler and an unregistered name finds none. |
| McpServer.NewServer | src/core/mcp-server.ts:18-37 | The manager is built on the configured MySQL settings with the getter's (non-zero) timeout, and is not yet connected. The tools are registered. |
| McpServer.Envelope | src/core/mcp-server.ts:160-168 | A returned value becomes `{result}`, and a thrown error becomes `{result: null, error: message}`. Only a throw of `null` or `undefined` makes the dispatch itself fail. |
| McpServer.Destructure | src/core/mcp-server.ts:177 | Destructuring the argument bag fails exactly when it is undefined or null, and otherwise yields the bag. |
| McpServer.ValidateQuery | src/core/mcp-server.ts:177-189 | A missing, falsy or whitespace-only query is "Empty query". A query may run exactly when it is a non-blank string and is not paired with null parameters in debug mode. |
| McpServer.Truncate | src/core/mcp-server.ts:194-199 | Up to the limit the result is unchanged. Beyond it the rows are a prefix of the original in order, marked truncated, with `totalRows` equal to the rows kept. For a non-negative limit that prefix is exactly the first `maxResults` rows. |
| McpServer.TruncateIdempotent | src/core/mcp-server.ts:194-199 | With a non-negative limit, truncating twice is truncating once. |
| McpServer.TruncateNegativeLimit | src/core/mcp-server.ts:194-199 | A negative limit drops rows from the end on every call. |
| McpServer.ExecuteQueryHandler | src/core/mcp-server.ts:175-205 | Every failure is an error prefixed "Query execution failed: ". The setup is kept and the manager stays balanced. |
| McpServer.EmptyQueryRejected | src/core/mcp-server.ts:179-181 | A missing, null or blank query fails with "Query execution failed: Empty query" and leaves the server untouched, so no database call is made. |
| McpServer.ExecuteQueryAnswer | src/core/mcp-server.ts:191-203 | A valid query runs that one statement through the manager. It answers the shaped rows truncated to the configured limit, or the manager's error behind the prefix. |
| McpServer.RunValidQuery | src/core/mcp-server.ts:190-203 | A validated query is executed once through the manager. Success answers its rows cut to the configured maximum; a manager error is rethrown behind "Query execution failed: ". The manager is only extended, and it stays valid. |
| McpServer.DatabaseNames | src/core/mcp-server.ts:214 | The answer lists each row's `Database` column, one per row, in row order; a row without one contributes null. |
| McpServer.GetDatabasesAnswer | src/core/mcp-server.ts:210-219 | `get_databases` runs `SHOW DATABASES` through the manager. On success the result is the reply to that statement, and the answer is `{databases}` holding its rows' `Database` column in order. On failure the answer is "Failed to get databases: " and the manager's error. |
| McpServer.GetDatabasesHandler | src/core/mcp-server.ts:210-219 | Success runs exactly `SHOW DATABASES`. Failures are prefixed "Failed to get databases: ". The setup is kept and balance is preserved. |
| McpServer.FirstColumns | src/core/mcp-server.ts:237-241 | The answer holds each row's first-column value, one per row, in row order. |
| McpServer.TablesQuery | src/core/mcp-server.ts:228-232 | The statement is `SHOW TABLES`, or ``SHOW TABLES FROM `db` `` when a truthy database is given. |
| McpServer.GetTablesHandler | src/core/mcp-server.ts:225-247 | Failures are prefixed "Failed to get tables: ". The setup is kept and balance is preserved. |
| McpServer.GetTablesAnswer | src/core/mcp-server.ts:228-245 | `get_tables` runs exactly its one statement. It answers each row's first column in order, or the manager's error behind the prefix. |
| McpServer.DescribeTableHandler | src/core/mcp-server.ts:253-302 | Any stage's failure aborts with "Failed to describe table: ". The setup is kept and balance is preserved. |
| McpServer.CurrentDatabase | src/core/mcp-server.ts:271-276 | A truthy database is used as given, without a query. Otherwise `SELECT DATABASE()` runs, and only it. The database is the `db` column of its first row, or none when it answers no row, and its failure is passed on. |
| McpServer.TableReference | src/core/mcp-server.ts:256-262 | The table name in backticks, qualified by the database in backticks when the database is truthy. |
| McpServer.ReportedDatabase | src/core/mcp-server.ts:275 | `data[0]?.db`: none for an empty answer, otherwise the first row's `db` column. |
| McpServer.ForeignKeyParams | src/core/mcp-server.ts:287 | The placeholder values `[currentDb, table]`, with an absent table sent as null. |
| McpServer.DescribeForeignKeys | src/core/mcp-server.ts:271-292 | The database is the one the current-database stage settled on. When it is truthy, the foreign-key query runs with `[currentDb, table]`, and the answer is that query's rows or its error. Otherwise nothing more runs and the answer is an empty array. |
| McpServer.DescribeTableAnswer | src/core/mcp-server.ts:253-302 | `DESCRIBE` runs first, then `SHOW INDEX FROM` on the manager it left, then the foreign-key stage. The first failure ends the call with "Failed to describe table: " and its message. Success answers `columns` and `indexes` with the rows of the first two statements, and `foreignKeys` with the stage's array. |
| McpServer.DescribeTableStatements | src/core/mcp-server.ts:256-292 | A successful run issues `DESCRIBE`, then `SHOW INDEX FROM`, then `SELECT DATABASE()` only without a given database. The foreign-key query follows only when the database the foreign-key stage settled on is truthy. |
| McpServer.RunHandler | src/core/mcp-server.ts:160 | Every handler keeps the setup, preserves balance, and throws only error objects. |
| McpServer.ExecuteTool | src/core/mcp-server.ts:148-169 | `executeTool` never rejects. An unknown tool gets `{result: null, error: "Unknown tool: <name>"}` without any handler running. An error always comes with a null result. The setup is kept and balance is preserved. |
| McpServer.ExecuteToolEnvelope | src/core/mcp-server.ts:160-168 | For a registered tool, the handler's value comes back as `{result}` with no error, and its failure message as `{result: null, error}`. |
| McpServer.ServerExecutor | src/core/mcp-server.ts:148-169 | This server's `executeTool` is lawful for the transports: it never rejects, keeps the setup, and only extends a balanced history. |
| McpServer.InitializeServer | src/core/mcp-server.ts:42-51 | Server start-up is the manager's initialize: the same connection state and the same result. From a fresh manager, it succeeds exactly when pool creation, the connection and the ping succeed, and otherwise fails with "MySQL connection failed: " and the first failing message. |
| McpServer.CloseServer | src/core/mcp-server.ts:307-310 | Server shutdown is the manager's close: the same connection state and the same result. With a pool it succeeds exactly when the driver ends the pool, and after a successful close no pool is left. |
| Framing.IndexOf | src/utils/stdio-server-utils.ts:61 | `indexOf('\n')` is -1 exactly when there is no newline. Otherwise it is the first newline's position. |
| Framing.SplitLines | src/utils/stdio-server-utils.ts:61-64 | The consumed lines, each followed by a newline, then the new buffer, give back the old buffer. No line and no leftover holds a newline, and no line is cut when the buffer holds no newline. |
| Framing.SplitJoin | src/utils/stdio-server-utils.ts:61-64 | The cut is unique: newline-free lines, written one per line, are cut back into exactly those lines. |
| Framing.SplitLinesChunked | src/utils/stdio-server-utils.ts:16-20 | Cutting two chunks one after the other yields the same lines as cutting their concatenation. |
| Framing.ProcessLine | src/utils/stdio-server-utils.ts:62-73 | A blank line yields nothing. Any other line yields either its parsed message or one "不正なJSON形式: " error, never both. |
| Framing.ProcessLines | src/utils/stdio-server-utils.ts:61-74 | Each line processed in order, with the messages and the error frames collected separately. `ProcessLinesAppend` and `ProcessLinesAllParse` state its behaviour. |
| Framing.ProcessLinesAppend | src/utils/stdio-server-utils.ts:61-74 | Lines are processed independently: messages and errors of later lines follow those of earlier lines, so a malformed line does not stop the rest. |
| Framing.ProcessLinesAllParse | src/utils/stdio-server-utils.ts:65-68 | Lines that are all well-formed yield their messages in order and no error. |
| Framing.ProcessBuffer | src/utils/stdio-server-utils.ts:57-77 | The loop's messages and errors are those of the complete lines of the buffer, in order. What remains is exactly the text after the last newline. |
| Framing.Feed | src/utils/stdio-server-utils.ts:16-20 | After a chunk the buffer holds no newline. A chunk without a newline, on a newline-free buffer, only grows the buffer. |
| Framing.FeedChunked | src/utils/stdio-server-utils.ts:16-20 | Chunk boundaries do not matter: two chunks yield the messages, errors and buffer of their concatenation. |
| Framing.WrittenFramesReadBack | src/utils/stdio-server-utils.ts:171-173 | Frames written one serialised value per line are read back as exactly those values, in order, with no error and no leftover, provided each written value serialises to one non-blank line that parses back to itself. |
| StdioServer.FrameToJson | src/utils/stdio-server-utils.ts:147-165 | Every frame is a two-member object: the `type` tag, then the payload. |
| StdioServer.TagsDistinguishFrames | src/utils/stdio-server-utils.ts:147-165 | The `type` member alone tells the four kinds of frame apart. |
| StdioServer.HandleToolRequest | src/utils/stdio-server-utils.ts:100-116 | A tool that is missing, not a string, or blank gets "ツール名が必要です" without reaching the server. Otherwise the server's envelope comes back as one `tool_response`. |
| StdioServer.ToolRequestReachesServer | src/utils/stdio-server-utils.ts:107-112 | With this server's `executeTool`, a named tool request is answered with exactly the server's envelope and the server it left. |
| StdioServer.HandleResourceRequest | src/utils/stdio-server-utils.ts:122-142 | A blank or missing URI gets "リソースURIが必要です". Any other request gets `{content: null, error: 'リソースアクセスは実装されていません'}`. |
| StdioServer.RouteOf | src/utils/stdio-server-utils.ts:85-93 | Only a `null` message fails the `type` read. The tool and resource paths receive the message's `request`. |
| StdioServer.RouteKind | src/utils/stdio-server-utils.ts:85-93 | A tool response is due exactly for a `tool_request` with a named request. A resource response is due exactly for a `resource_request` with a URI, and server information exactly on the `server_info_request` path. |
| StdioServer.HandleMessage | src/utils/stdio-server-utils.ts:83-94 | A `null` message gets the error thrown by reading its `type`. The setup is kept and balance is preserved. |
| StdioServer.ToolMessageAnswered | src/utils/stdio-server-utils.ts:85-86 | A `tool_request` with a truthy `request` is answered exactly as `handleToolRequest` answers that request, including the server it leaves. |
| StdioServer.ResourceMessageAnswered | src/utils/stdio-server-utils.ts:87-88 | A `resource_request` with a truthy `request` is answered exactly as `handleResourceRequest` answers that request, and the server is untouched. |
| StdioServer.OtherMessageRefused | src/utils/stdio-server-utils.ts:83-92 | Any other non-null message is answered with "不明なメッセージタイプまたは無効なリクエスト形式", and the server is untouched. This includes a tool or resource request without a truthy `request`. |
| StdioServer.HandleMessageKind | src/utils/stdio-server-utils.ts:83-94 | Every message is answered by the kind of frame its shape calls for, and everything else gets an error frame. |
| StdioServer.HandleMessageKeepsServer | src/utils/stdio-server-utils.ts:83-94 | Only a message answered by a tool response can change the server. |
| StdioServer.ServerInfoAnswer | src/utils/stdio-server-utils.ts:89-90 | A `server_info_request` gets the server definition as it stands, and the server is untouched. |
| StdioServer.HandleAll | src/utils/stdio-server-utils.ts:22-28 | The messages of a chunk are handled in order, one frame each, and each frame is of its message's kind. |
| StdioServer.HandleFirst | src/utils/stdio-server-utils.ts:22-28 | The first message is handled, then the rest with the server it left, one frame each, of the expected kinds. |
| StdioServer.Start | src/utils/stdio-server-utils.ts:51 | Start-up writes exactly one frame, `server_info`, before any input. On a constructed server it lists the four tools. The buffer starts empty. |
| StdioServer.OnData | src/utils/stdio-server-utils.ts:16-29 | A chunk keeps the setup and the session invariant, and leaves in the buffer exactly the text after the last newline. |
| StdioServer.OnDataFrames | src/utils/stdio-server-utils.ts:16-29 | A chunk writes one frame per complete non-blank line: first an error frame for each malformed line, then one frame of the expected kind per message. |
| StdioServer.OnDataBuffers | src/utils/stdio-server-utils.ts:16-20 | A chunk without a newline is only buffered: nothing is written and the server is untouched. |
| StdioServer.OnEnd | src/utils/stdio-server-utils.ts:31-36 | End of input is the server's close: the session's server is exactly the one that close leaves, so with a pool the driver is asked to end it. Setup, buffer and the invariant are kept, and after a successful close no pool is left. |
| HttpServer.PostTools | src/cli/utils/server-utils.ts:30-59 | A tool that is not a non-blank string gets 400 and leaves the server untouched. A lawful `executeTool` makes a named request 200, so the 500 branch is unreachable. |
| HttpServer.GetResource | src/cli/utils/server-utils.ts:62-89 | A blank URI gets 400 "Resource URI is required". Every other URI gets 200 with "Resource access not implemented". |
| HttpServer.ParseBody | src/cli/utils/server-utils.ts:21 | The strict JSON parser hands on a document only when its top level is an object or an array. A primitive document is refused with the parser's syntax error, and text that is not JSON with its own message. |
| HttpServer.Handle | src/cli/utils/server-utils.ts:21-97 | Status 500 occurs exactly for a body the parser refused. The setup is kept and balance is preserved. |
| HttpServer.PrimitiveBodyRefused | src/cli/utils/server-utils.ts:21-97 | A JSON document whose top level is a string, number, boolean or null reaches no route. The error middleware answers 500 with the parser's message, whatever the route. |
| HttpServer.OnlyToolCallsChangeServer | src/cli/utils/server-utils.ts:24-89 | Only a named `POST /tools` request reaches the server, and no other tools request gets 200. |
| HttpServer.UnnamedToolRefused | src/cli/utils/server-utils.ts:30-39 | A tool request without a non-blank string name gets 400 and leaves the server untouched. |
| HttpServer.RootListsTools | src/cli/utils/server-utils.ts:24-27 | `GET /` answers 200 with the server definition unchanged, which lists the four tools, whatever object or array came with the request. |
| HttpServer.PostToolsAnswer | src/cli/utils/server-utils.ts:41-44 | A named tool request gets 200 with the dispatcher's envelope as the body, unchanged. |
| HttpServer.TransportsAgree | src/cli/utils/server-utils.ts:41-44 | A named tool request leaves the same server over HTTP and stdio. The HTTP body is the `response` member of the stdio frame. |
| HttpServer.NonStringToolName | src/cli/utils/server-utils.ts:34 | A truthy non-string tool makes `trim` throw over HTTP, which gives 400 "Invalid tool request". Over stdio the same request gets "ツール名が必要です". Neither reaches the server. |

## Left out

- `getTransaction` (`src/mysql/connection.ts:135-147`) is not modelled. It hands a borrowed connection to the caller without releasing it, so it lies outside the balance invariant. No tool calls it.
- Concurrency is not modelled. The model handles each `data` event to completion before the next. In the source a later chunk's handler can run while an earlier one awaits the database, so their frames can interleave.
- The mysql2 driver is the oracle `Driver`. SQL semantics, escaping and the driver's own error texts are not modelled.
- `JSON.parse` and `JSON.stringify` are the parameters `parse` and `stringify`. The JSON grammar, floating-point numbers and duplicate keys are not modelled. `Lookup` reads the first member with a key, while `JSON.parse` keeps the last.
- Numbers are integers, plus the NaN that `parseInt` yields. Fractions, infinities and `-0` are not modelled.
- `undefined` is `None` for a property and `Null` inside arrays, as `JSON.stringify` writes it.
- File and environment I/O are not modelled. `loadConfigFile` (path search, `readFileSync`, the caught read error) is replaced by an optional parsed `ConfigFile`, and `process.env` by a map.
- Config.MergeConfig: a key the file sets to JSON `null` is not representable. `ConfigFile` keeps only absent or typed values.
- The constructor's shallow copy of `DEFAULT_CONFIG` (`src/config/config.ts:37`) shares the nested `server` and `mysql` objects, so later writes change the defaults themselves. The model uses immutable values and does not reproduce this aliasing.
- Process wiring is not modelled: `src/cli/cli.ts`, `src/index.ts`, `src/config/constants.ts`, the SIGINT/SIGTERM handlers and `process.exit` (`src/utils/stdio-server-utils.ts:38-48`), and all console logging.
- Express, CORS, body-parser limits, content-type checks, `listen`, and unmatched routes (404) are not modelled. The parser is modelled in strict mode: only a top-level object or array is parsed, and every refusal is `Malformed(message)`. The wording of the syntax error is the runtime's and is a parameter (`refusal`).
- HttpServer.GetResource: the `catch` at `src/cli/utils/server-utils.ts:82-88` is not modelled, because nothing in its `try` can throw once the URI is a string.
- StdioServer.HandleResourceRequest: the `catch` at `src/utils/stdio-server-utils.ts:139-141` is not modelled, for the same reason.
- StdioServer.HandleToolRequest and HttpServer.PostTools model the rejection branches ("ツール実行エラー: " and status 500). `McpServer.ExecuteTool` never takes them, and the transports are stated for any lawful executor.
- McpServer.LookupHandler reads the constant handler map `Handlers` instead of the server's registry. The two agree because `RegisterTools` yields `Handlers` and no operation changes the registry (`SameSetup`).
- The tool input schemas are recorded as values and are not validated against arguments, as in the source.
- The debug-mode logging in `executeQuery` is not modelled. Its one observable effect, the throw on `null` parameters, is modelled in `ValidateQuery`.
- Connection.Initialize: the `ssl` pool option is not modelled.
- Js.AsciiLower: only ASCII letters are folded, whereas `toLowerCase()` also lower-cases other scripts. DEBUG is compared with `true`, `1` and `yes`. The only characters outside ASCII whose lower case holds an ASCII letter are the Kelvin sign (`k`) and `İ` (`i` and a combining dot). Neither letter occurs in those words, so the whitelist test is unaffected.

=== FILE: config.dfy ===
/**
 * Configuration layering: built-in defaults, then an optional configuration
 * file, then environment variables, then command-line arguments. Each layer
 * has its own override guard; the model threads immutable `AppConfig` values
 * through the layers instead of mutating one object in place.
 */
module Config {
  import opened Wrappers
  import opened Js
  import opened Types

  const DefaultQueryTimeout: int := 30000
  const DefaultMaxResultSize: int := 1000

  /** The built-in defaults every configuration starts from. */
  const Defaults: AppConfig := AppConfig(
    ServerConfig(Int(3000), "localhost"),
    MySQLConfig("localhost", Int(3306), "root", "", None, None, None, None),
    false,
    Some(Int(DefaultQueryTimeout)),
    Some(Int(DefaultMaxResultSize)))

  /** The `server` object of a configuration file: each key present or absent. */
  datatype ServerPatch = ServerPatch(port: Option<int>, host: Option<string>)

  /** The `mysql` object of a configuration file: each key present or absent. */
  datatype MySQLPatch = MySQLPatch(
    host: Option<string>,
    port: Option<int>,
    user: Option<string>,
    password: Option<string>,
    database: Option<string>,
    connectionLimit: Option<int>,
    timezone: Option<string>,
    charset: Option<string>)

  /** A parsed configuration file. */
  datatype ConfigFile = ConfigFile(
    server: Option<ServerPatch>,
    mysql: Option<MySQLPatch>,
    debug: Option<bool>,
    queryTimeout: Option<int>,
    maxResultSize: Option<int>)

  /** The argument record the command line hands over; `None` is `undefined`. */
  datatype CliArgs = CliArgs(
    port: Option<Number>,
    host: Option<string>,
    dbHost: Option<string>,
    dbPort: Option<Number>,
    dbUser: Option<string>,
    dbPassword: Option<string>,
    dbName: Option<string>,
    debug: Option<bool>,
    queryTimeout: Option<Number>,
    maxResultSize: Option<Number>)

  const NoArgs: CliArgs := CliArgs(None, None, None, None, None, None, None, None, None, None)

  /** The value a layer supplies, or the prior value when it supplies none. */
  function Override<T>(prior: T, patch: Option<T>): (r: T)
    ensures patch.Some? ==> r == patch.value
    ensures patch.None? ==> r == prior
  {
    if patch.Some? then patch.value else prior
  }

  function OverrideNumber(prior: Number, patch: Option<int>): Number {
    if patch.Some? then Int(patch.value) else prior
  }

  /** `{...server, ...patch}`. */
  function SpreadServer(s: ServerConfig, p: ServerPatch): ServerConfig {
    ServerConfig(OverrideNumber(s.port, p.port), Override(s.host, p.host))
  }

  /** `{...mysql, ...patch}`. */
  function SpreadMySQL(m: MySQLConfig, p: MySQLPatch): MySQLConfig {
    MySQLConfig(
      Override(m.host, p.host),
      OverrideNumber(m.port, p.port),
      Override(m.user, p.user),
      Override(m.password, p.password),
      if p.database.Some? then p.database else m.database,
      if p.connectionLimit.Some? then p.connectionLimit else m.connectionLimit,
      if p.timezone.Some? then p.timezone else m.timezone,
      if p.charset.Some? then p.charset else m.charset)
  }

  /**
   * One layer's effect on one field: the field takes the value the layer
   * supplies, and keeps its prior value when the layer supplies none.
   */
  predicate Layer<T(==)>(r: T, prior: T, supplied: Option<T>) {
    (supplied.Some? ==> r == supplied.value) && (supplied.None? ==> r == prior)
  }

  /** A numeric key of the file, as the number it stores. */
  function IntLayer(v: Option<int>): Option<Number> {
    if v.Some? then Some(Int(v.value)) else None
  }

  /** A supplied value for a field that may itself be absent. */
  function Present<T>(v: Option<T>): Option<Option<T>> {
    if v.Some? then Some(v) else None
  }

  /** The file's `server` object; a missing one supplies no key. */
  function ServerOf(f: ConfigFile): ServerPatch {
    if f.server.Some? then f.server.value else ServerPatch(None, None)
  }

  /** The file's `mysql` object; a missing one supplies no key. */
  function MySQLOf(f: ConfigFile): MySQLPatch {
    if f.mysql.Some? then f.mysql.value else MySQLPatch(None, None, None, None, None, None, None, None)
  }

  /**
   * Merges a configuration file into `c`: `server` and `mysql` key by key,
   * the scalar settings only when the file defines them.
   */
  function MergeConfig(c: AppConfig, f: ConfigFile): (r: AppConfig)
    ensures f.server.None? ==> r.server == c.server
    ensures f.mysql.None? ==> r.mysql == c.mysql
    ensures Layer(r.server.port, c.server.port, IntLayer(ServerOf(f).port))
    ensures Layer(r.server.host, c.server.host, ServerOf(f).host)
    ensures Layer(r.mysql.host, c.mysql.host, MySQLOf(f).host)
    ensures Layer(r.mysql.port, c.mysql.port, IntLayer(MySQLOf(f).port))
    ensures Layer(r.mysql.user, c.mysql.user, MySQLOf(f).user)
    ensures Layer(r.mysql.password, c.mysql.password, MySQLOf(f).password)
    ensures Layer(r.mysql.database, c.mysql.database, Present(MySQLOf(f).database))
    ensures Layer(r.mysql.connectionLimit, c.mysql.connectionLimit, Present(MySQLOf(f).connectionLimit))
    ensures Layer(r.mysql.timezone, c.mysql.timezone, Present(MySQLOf(f).timezone))
    ensures Layer(r.mysql.charset, c.mysql.charset, Present(MySQLOf(f).charset))
    ensures Layer(r.debug, c.debug, f.debug)
    ensures Layer(r.queryTimeout, c.queryTimeout, Present(IntLayer(f.queryTimeout)))
    ensures Layer(r.maxResultSize, c.maxResultSize, Present(IntLayer(f.maxResultSize)))
  {
    AppConfig(
      if f.server.Some? then SpreadServer(c.server, f.server.value) else c.server,
      if f.mysql.Some? then SpreadMySQL(c.mysql, f.mysql.value) else c.mysql,
      Override(c.debug, f.debug),
      if f.queryTimeout.Some? then Some(Int(f.queryTimeout.value)) else c.queryTimeout,
      if f.maxResultSize.Some? then Some(Int(f.maxResultSize.value)) else c.maxResultSize)
  }

  /** An environment variable counts only when it is set to a non-empty string. */
  predicate EnvSet(env: map<string, string>, name: string) {
    name in env && env[name] != ""
  }

  /** DEBUG switches debugging on for `true`, `1` or `yes`, in any letter case. */
  predicate DebugWhitelisted(env: map<string, string>) {
    EnvSet(env, "DEBUG") && AsciiLower(env["DEBUG"]) in ["true", "1", "yes"]
  }

  function EnvLayer(env: map<string, string>, name: string): Option<string> {
    if EnvSet(env, name) then Some(env[name]) else None
  }

  /** A numeric variable, parsed as `parseInt(value, 10)` does (NaN when no digits lead). */
  function EnvNumberLayer(env: map<string, string>, name: string): Option<Number> {
    if EnvSet(env, name) then Some(ParseInt(env[name])) else None
  }

  /** Applies the environment variables that are set; DEBUG can only switch debugging on. */
  function LoadFromEnvironment(c: AppConfig, env: map<string, string>): (r: AppConfig)
    ensures r.debug <==> c.debug || DebugWhitelisted(env)
    ensures Layer(r.debug, c.debug, DebugLayer(env))
    ensures Layer(r.server.port, c.server.port, EnvNumberLayer(env, "MCP_SERVER_PORT"))
    ensures Layer(r.server.host, c.server.host, EnvLayer(env, "MCP_SERVER_HOST"))
    ensures Layer(r.mysql.host, c.mysql.host, EnvLayer(env, "DB_HOST"))
    ensures Layer(r.mysql.port, c.mysql.port, EnvNumberLayer(env, "DB_PORT"))
    ensures Layer(r.mysql.user, c.mysql.user, EnvLayer(env, "DB_USER"))
    ensures Layer(r.mysql.password, c.mysql.password, EnvLayer(env, "DB_PASSWORD"))
    ensures Layer(r.mysql.database, c.mysql.database, Present(EnvLayer(env, "DB_DATABASE")))
    ensures Layer(r.queryTimeout, c.queryTimeout, Present(EnvNumberLayer(env, "QUERY_TIMEOUT")))
    ensures Layer(r.maxResultSize, c.maxResultSize, Present(EnvNumberLayer(env, "MAX_RESULT_SIZE")))
    ensures r.mysql.connectionLimit == c.mysql.connectionLimit
    ensures r.mysql.timezone == c.mysql.timezone && r.mysql.charset == c.mysql.charset
  {
    var m := c.mysql;
    AppConfig(
      ServerConfig(Override(c.server.port, EnvNumberLayer(env, "MCP_SERVER_PORT")),
                   Override(c.server.host, EnvLayer(env, "MCP_SERVER_HOST"))),
      MySQLConfig(
        Override(m.host, EnvLayer(env, "DB_HOST")),
        Override(m.port, EnvNumberLayer(env, "DB_PORT")),
        Override(m.user, EnvLayer(env, "DB_USER")),
        Override(m.password, EnvLayer(env, "DB_PASSWORD")),
        Override(m.database, Present(EnvLayer(env, "DB_DATABASE"))),
        m.connectionLimit, m.timezone, m.charset),
      Override(c.debug, DebugLayer(env)),
      Override(c.queryTimeout, Present(EnvNumberLayer(env, "QUERY_TIMEOUT"))),
      Override(c.maxResultSize, Present(EnvNumberLayer(env, "MAX_RESULT_SIZE"))))
  }

  /** The DEBUG test ignores letter case. */
  lemma DebugCaseInsensitive(env1: map<string, string>, env2: map<string, string>)
    requires "DEBUG" in env1 && "DEBUG" in env2
    requires AsciiLower(env1["DEBUG"]) == AsciiLower(env2["DEBUG"])
    ensures DebugWhitelisted(env1) <==> DebugWhitelisted(env2)
  {
    assert env1["DEBUG"] == "" <==> env2["DEBUG"] == "";
  }

  /** `TRUE` and `Yes` switch debugging on; `false` and `0` leave the prior setting. */
  lemma DebugExamples(c: AppConfig)
    ensures LoadFromEnvironment(c, map["DEBUG" := "TRUE"]).debug
    ensures LoadFromEnvironment(c, map["DEBUG" := "Yes"]).debug
    ensures LoadFromEnvironment(c, map["DEBUG" := "false"]).debug == c.debug
    ensures LoadFromEnvironment(c, map["DEBUG" := "0"]).debug == c.debug
  {
    assert AsciiLower("TRUE") == "true";
    assert AsciiLower("Yes") == "yes";
    assert AsciiLower("false") == "false";
    assert AsciiLower("0") == "0";
  }

  /** A string argument counts only when it is truthy (defined and non-empty). */
  function TruthyLayer(s: Option<string>): Option<string> {
    if StringTruthy(s) then s else None
  }

  /** A port argument counts only when it is truthy (defined, non-zero, not NaN). */
  function TruthyNumberLayer(n: Option<Number>): Option<Number> {
    if n.Some? && NumberTruthy(n.value) then n else None
  }

  /**
   * Applies command-line arguments: the connection strings and ports only
   * when truthy, the scalar settings whenever they are defined.
   */
  function ApplyCommandLineArgs(c: AppConfig, a: CliArgs): (r: AppConfig)
    ensures Layer(r.server.port, c.server.port, TruthyNumberLayer(a.port))
    ensures Layer(r.server.host, c.server.host, TruthyLayer(a.host))
    ensures Layer(r.mysql.host, c.mysql.host, TruthyLayer(a.dbHost))
    ensures Layer(r.mysql.port, c.mysql.port, TruthyNumberLayer(a.dbPort))
    ensures Layer(r.mysql.user, c.mysql.user, TruthyLayer(a.dbUser))
    ensures Layer(r.mysql.password, c.mysql.password, TruthyLayer(a.dbPassword))
    ensures Layer(r.mysql.database, c.mysql.database, Present(TruthyLayer(a.dbName)))
    ensures Layer(r.debug, c.debug, a.debug)
    ensures Layer(r.queryTimeout, c.queryTimeout, Present(a.queryTimeout))
    ensures Layer(r.maxResultSize, c.maxResultSize, Present(a.maxResultSize))
    ensures r.mysql.connectionLimit == c.mysql.connectionLimit
    ensures r.mysql.timezone == c.mysql.timezone && r.mysql.charset == c.mysql.charset
    ensures a == NoArgs ==> r == c
  {
    var m := c.mysql;
    AppConfig(
      ServerConfig(Override(c.server.port, TruthyNumberLayer(a.port)), Override(c.server.host, TruthyLayer(a.host))),
      MySQLConfig(
        Override(m.host, TruthyLayer(a.dbHost)),
        Override(m.port, TruthyNumberLayer(a.dbPort)),
        Override(m.user, TruthyLayer(a.dbUser)),
        Override(m.password, TruthyLayer(a.dbPassword)),
        Override(m.database, Present(TruthyLayer(a.dbName))),
        m.connectionLimit, m.timezone, m.charset),
      Override(c.debug, a.debug),
      Override(c.queryTimeout, Present(a.queryTimeout)),
      Override(c.maxResultSize, Present(a.maxResultSize)))
  }

  /** The configuration the manager holds after construction: defaults, file (when one was read), environment. */
  function InitialConfig(file: Option<ConfigFile>, env: map<string, string>): AppConfig {
    var fromFile := if file.Some? then MergeConfig(Defaults, file.value) else Defaults;
    LoadFromEnvironment(fromFile, env)
  }

  /** The configuration after the command-line layer has been applied as well. */
  function Resolve(file: Option<ConfigFile>, env: map<string, string>, args: CliArgs): AppConfig {
    ApplyCommandLineArgs(InitialConfig(file, env), args)
  }

  /** `queryTimeout || 30000`: the stored timeout unless it is falsy (undefined, 0 or NaN). */
  function GetQueryTimeout(c: AppConfig): (r: int)
    ensures r != 0
    ensures c.queryTimeout.Some? && NumberTruthy(c.queryTimeout.value) ==> r == c.queryTimeout.value.i
    ensures !(c.queryTimeout.Some? && NumberTruthy(c.queryTimeout.value)) ==> r == DefaultQueryTimeout
  {
    if c.queryTimeout.Some? && NumberTruthy(c.queryTimeout.value) then c.queryTimeout.value.i else DefaultQueryTimeout
  }

  /** `maxResultSize || 1000`: the stored row limit unless it is falsy (undefined, 0 or NaN). */
  function GetMaxResultSize(c: AppConfig): (r: int)
    ensures r != 0
    ensures c.maxResultSize.Some? && NumberTruthy(c.maxResultSize.value) ==> r == c.maxResultSize.value.i
    ensures !(c.maxResultSize.Some? && NumberTruthy(c.maxResultSize.value)) ==> r == DefaultMaxResultSize
  {
    if c.maxResultSize.Some? && NumberTruthy(c.maxResultSize.value) then c.maxResultSize.value.i else DefaultMaxResultSize
  }

  // Layer precedence, stated independently of the merge functions: a field
  // takes the value of the LAST layer that sets it, else its default.

  /** The last value some layer sets, or `default` when none does. */
  function LastSet<T>(default: T, layers: seq<Option<T>>): (r: T)
    ensures (forall i :: 0 <= i < |layers| ==> layers[i].None?) ==> r == default
    ensures |layers| > 0 && layers[|layers| - 1].Some? ==> r == layers[|layers| - 1].value
  {
    if |layers| == 0 then default
    else if layers[|layers| - 1].Some? then layers[|layers| - 1].value
    else LastSet(default, layers[..|layers| - 1])
  }

  /** The file as read, or one defining no key when none was read. */
  function FileOf(file: Option<ConfigFile>): ConfigFile {
    if file.Some? then file.value else ConfigFile(None, None, None, None, None)
  }

  /** DEBUG as a layer: it can only supply `true`. */
  function DebugLayer(env: map<string, string>): Option<bool> {
    if DebugWhitelisted(env) then Some(true) else None
  }

  /** Reading no file is merging a file that defines no key. */
  lemma NoFileIsEmptyFile(file: Option<ConfigFile>, env: map<string, string>)
    ensures InitialConfig(file, env) == LoadFromEnvironment(MergeConfig(Defaults, FileOf(file)), env)
  {
  }

  /** Three layers applied in turn leave a field with the last value any of them supplies. */
  lemma {:induction false} ThreeLayers<T>(default: T, r1: T, r2: T, r3: T, p1: Option<T>, p2: Option<T>, p3: Option<T>)
    requires Layer(r1, default, p1) && Layer(r2, r1, p2) && Layer(r3, r2, p3)
    ensures r3 == LastSet(default, [p1, p2, p3])
  {
    assert [p1, p2, p3][..2] == [p1, p2];
    assert [p1, p2][..1] == [p1];
    assert [p1][..0] == [];
  }

  /** The server port comes from the latest of file, `MCP_SERVER_PORT` and a truthy `port` argument. */
  lemma ServerPortPrecedence(file: Option<ConfigFile>, env: map<string, string>, args: CliArgs)
    ensures Resolve(file, env, args).server.port
         == LastSet(Defaults.server.port,
                    [IntLayer(ServerOf(FileOf(file)).port), EnvNumberLayer(env, "MCP_SERVER_PORT"), TruthyNumberLayer(args.port)])
  {
    NoFileIsEmptyFile(file, env);
    var c1 := MergeConfig(Defaults, FileOf(file));
    var c2 := LoadFromEnvironment(c1, env);
    ThreeLayers(Defaults.server.port, c1.server.port, c2.server.port, ApplyCommandLineArgs(c2, args).server.port,
                IntLayer(ServerOf(FileOf(file)).port), EnvNumberLayer(env, "MCP_SERVER_PORT"), TruthyNumberLayer(args.port));
  }

  /** The server host comes from the latest of file, `MCP_SERVER_HOST` and a non-empty `host` argument. */
  lemma ServerHostPrecedence(file: Option<ConfigFile>, env: map<string, string>, args: CliArgs)
    ensures Resolve(file, env, args).server.host
         == LastSet(Defaults.server.host, [ServerOf(FileOf(file)).host, EnvLayer(env, "MCP_SERVER_HOST"), TruthyLayer(args.host)])
  {
    NoFileIsEmptyFile(file, env);
    var c1 := MergeConfig(Defaults, FileOf(file));
    var c2 := LoadFromEnvironment(c1, env);
    ThreeLayers(Defaults.server.host, c1.server.host, c2.server.host, ApplyCommandLineArgs(c2, args).server.host,
                ServerOf(FileOf(file)).host, EnvLayer(env, "MCP_SERVER_HOST"), TruthyLayer(args.host));
  }

  /** The database host comes from the latest of file, `DB_HOST` and a non-empty `dbHost` argument. */
  lemma HostPrecedence(file: Option<ConfigFile>, env: map<string, string>, args: CliArgs)
    ensures Resolve(file, env, args).mysql.host
         == LastSet(Defaults.mysql.host, [MySQLOf(FileOf(file)).host, EnvLayer(env, "DB_HOST"), TruthyLayer(args.dbHost)])
  {
    NoFileIsEmptyFile(file, env);
    var c1 := MergeConfig(Defaults, FileOf(file));
    var c2 := LoadFromEnvironment(c1, env);
    ThreeLayers(Defaults.mysql.host, c1.mysql.host, c2.mysql.host, ApplyCommandLineArgs(c2, args).mysql.host,
                MySQLOf(FileOf(file)).host, EnvLayer(env, "DB_HOST"), TruthyLayer(args.dbHost));
  }

  /** The database port comes from the latest of file, `DB_PORT` and a truthy `dbPort` argument. */
  lemma MySQLPortPrecedence(file: Option<ConfigFile>, env: map<string, string>, args: CliArgs)
    ensures Resolve(file, env, args).mysql.port
         == LastSet(Defaults.mysql.port,
                    [IntLayer(MySQLOf(FileOf(file)).port), EnvNumberLayer(env, "DB_PORT"), TruthyNumberLayer(args.dbPort)])
  {
    NoFileIsEmptyFile(file, env);
    var c1 := MergeConfig(Defaults, FileOf(file));
    var c2 := LoadFromEnvironment(c1, env);
    ThreeLayers(Defaults.mysql.port, c1.mysql.port, c2.mysql.port, ApplyCommandLineArgs(c2, args).mysql.port,
                IntLayer(MySQLOf(FileOf(file)).port), EnvNumberLayer(env, "DB_PORT"), TruthyNumberLayer(args.dbPort));
  }

  /** The database user comes from the latest of file, `DB_USER` and a non-empty `dbUser` argument. */
  lemma UserPrecedence(file: Option<ConfigFile>, env: map<string, string>, args: CliArgs)
    ensures Resolve(file, env, args).mysql.user
         == LastSet(Defaults.mysql.user, [MySQLOf(FileOf(file)).user, EnvLayer(env, "DB_USER"), TruthyLayer(args.dbUser)])
  {
    NoFileIsEmptyFile(file, env);
    var c1 := MergeConfig(Defaults, FileOf(file));
    var c2 := LoadFromEnvironment(c1, env);
    ThreeLayers(Defaults.mysql.user, c1.mysql.user, c2.mysql.user, ApplyCommandLineArgs(c2, args).mysql.user,
                MySQLOf(FileOf(file)).user, EnvLayer(env, "DB_USER"), TruthyLayer(args.dbUser));
  }

  /** An empty password at a later layer never erases one set earlier. */
  lemma PasswordPrecedence(file: Option<ConfigFile>, env: map<string, string>, args: CliArgs)
    ensures Resolve(file, env, args).mysql.password
         == LastSet(Defaults.mysql.password, [MySQLOf(FileOf(file)).password, EnvLayer(env, "DB_PASSWORD"), TruthyLayer(args.dbPassword)])
  {
    NoFileIsEmptyFile(file, env);
    var c1 := MergeConfig(Defaults, FileOf(file));
    var c2 := LoadFromEnvironment(c1, env);
    ThreeLayers(Defaults.mysql.password, c1.mysql.password, c2.mysql.password, ApplyCommandLineArgs(c2, args).mysql.password,
                MySQLOf(FileOf(file)).password, EnvLayer(env, "DB_PASSWORD"), TruthyLayer(args.dbPassword));
  }

  /** The default database comes from the latest of file, `DB_DATABASE` and a non-empty `dbName` argument. */
  lemma DatabasePrecedence(file: Option<ConfigFile>, env: map<string, string>, args: CliArgs)
    ensures Resolve(file, env, args).mysql.database
         == LastSet(Defaults.mysql.database,
                    [Present(MySQLOf(FileOf(file)).database), Present(EnvLayer(env, "DB_DATABASE")), Present(TruthyLayer(args.dbName))])
  {
    NoFileIsEmptyFile(file, env);
    var c1 := MergeConfig(Defaults, FileOf(file));
    var c2 := LoadFromEnvironment(c1, env);
    ThreeLayers(Defaults.mysql.database, c1.mysql.database, c2.mysql.database, ApplyCommandLineArgs(c2, args).mysql.database,
                Present(MySQLOf(FileOf(file)).database), Present(EnvLayer(env, "DB_DATABASE")), Present(TruthyLayer(args.dbName)));
  }

  /** The pool limit, time zone and character set can only come from the file. */
  lemma FileOnlyFields(file: Option<ConfigFile>, env: map<string, string>, args: CliArgs)
    ensures var m := Resolve(file, env, args).mysql;
            && m.connectionLimit == MySQLOf(FileOf(file)).connectionLimit
            && m.timezone == MySQLOf(FileOf(file)).timezone
            && m.charset == MySQLOf(FileOf(file)).charset
  {
    NoFileIsEmptyFile(file, env);
  }

  /** Debugging is on when the latest layer that speaks says so; the environment can only say "on". */
  lemma DebugPrecedence(file: Option<ConfigFile>, env: map<string, string>, args: CliArgs)
    ensures Resolve(file, env, args).debug == LastSet(Defaults.debug, [FileOf(file).debug, DebugLayer(env), args.debug])
  {
    NoFileIsEmptyFile(file, env);
    var c1 := MergeConfig(Defaults, FileOf(file));
    var c2 := LoadFromEnvironment(c1, env);
    ThreeLayers(Defaults.debug, c1.debug, c2.debug, ApplyCommandLineArgs(c2, args).debug,
                FileOf(file).debug, DebugLayer(env), args.debug);
  }

  /** The stored query timeout comes from the latest layer that defines it. */
  lemma QueryTimeoutPrecedence(file: Option<ConfigFile>, env: map<string, string>, args: CliArgs)
    ensures Resolve(file, env, args).queryTimeout
         == LastSet(Defaults.queryTimeout,
                    [Present(IntLayer(FileOf(file).queryTimeout)), Present(EnvNumberLayer(env, "QUERY_TIMEOUT")), Present(args.queryTimeout)])
  {
    NoFileIsEmptyFile(file, env);
    var c1 := MergeConfig(Defaults, FileOf(file));
    var c2 := LoadFromEnvironment(c1, env);
    ThreeLayers(Defaults.queryTimeout, c1.queryTimeout, c2.queryTimeout, ApplyCommandLineArgs(c2, args).queryTimeout,
                Present(IntLayer(FileOf(file).queryTimeout)), Present(EnvNumberLayer(env, "QUERY_TIMEOUT")), Present(args.queryTimeout));
  }

  /** The stored row limit comes from the latest layer that defines it. */
  lemma MaxResultSizePrecedence(file: Option<ConfigFile>, env: map<string, string>, args: CliArgs)
    ensures Resolve(file, env, args).maxResultSize
         == LastSet(Defaults.maxResultSize,
                    [Present(IntLayer(FileOf(file).maxResultSize)), Present(EnvNumberLayer(env, "MAX_RESULT_SIZE")), Present(args.maxResultSize)])
  {
    NoFileIsEmptyFile(file, env);
    var c1 := MergeConfig(Defaults, FileOf(file));
    var c2 := LoadFromEnvironment(c1, env);
    ThreeLayers(Defaults.maxResultSize, c1.maxResultSize, c2.maxResultSize, ApplyCommandLineArgs(c2, args).maxResultSize,
                Present(IntLayer(FileOf(file).maxResultSize)), Present(EnvNumberLayer(env, "MAX_RESULT_SIZE")), Present(args.maxResultSize));
  }

  /** With no file, no environment and no arguments the getters report the documented defaults. */
  lemma DefaultsReported()
    ensures Resolve(None, map[], NoArgs) == Defaults
    ensures GetQueryTimeout(Defaults) == 30000 && GetMaxResultSize(Defaults) == 1000
    ensures Defaults.server.port == Int(3000) && Defaults.mysql.port == Int(3306) && !Defaults.debug
  {
    assert !DebugWhitelisted(map[]);
  }
}

=== FILE: connection.dfy ===
/**
 * The connection manager: at most one connection pool, a connected flag and
 * the per-session statement timeout, driven over an abstract driver whose
 * every call may succeed or fail.
 *
 * The driver is an oracle `Driver = (nat, DriverCall) -> Reply`: the reply to
 * the n-th call the manager ever makes. The manager state records the calls
 * it made (`trace`) and counts pooled connections acquired and released and
 * pools created and ended, so that "nothing leaks" is a statement about the
 * state.
 */
module Connection {
  import opened Wrappers
  import opened Js
  import opened Types

  /** The options the pool is created with; unset limits fall back to the driver defaults the code names. */
  datatype PoolOptions = PoolOptions(
    host: string,
    port: Number,
    user: string,
    password: string,
    database: Option<string>,
    connectionLimit: int,
    timezone: string,
    charset: string)

  datatype DriverCall =
    | CreatePool(options: PoolOptions)
    | GetConnection
    | PingConnection
      /** `SET SESSION MAX_EXECUTION_TIME=<ms>` on the acquired connection. */
    | SetSessionTimeout(ms: int)
    | RunQuery(sql: string, params: Value)
    | EndPool

  /** What a successful query call hands back: a row set, or the packet of a mutating statement. */
  datatype Payload =
    | NoPayload
    | RowSet(rows: seq<Row>, fields: seq<Value>)
    | OkPacket(affectedRows: int, insertId: int, changedRows: Option<int>)

  datatype Reply = Succeeded(payload: Payload) | Failed(message: string)

  /** The reply to the n-th driver call. */
  type Driver = (nat, DriverCall) -> Reply

  datatype Pool = Pool(id: nat)

  datatype Conn = Conn(
    config: MySQLConfig,
    queryTimeout: int,
    pool: Option<Pool>,
    isConnected: bool,
    trace: seq<DriverCall>,
    acquired: nat,
    released: nat,
    poolsCreated: nat,
    poolsEnded: nat)

  /** The state after an operation and what the operation returned or threw. */
  datatype Step<T> = Step(conn: Conn, result: Result<T, string>)

  const PoolNotInitialized: string := "Connection pool not initialized"
  const ConnectionFailedPrefix: string := "MySQL connection failed: "
  const QueryFailedPrefix: string := "Query failed: "

  /** A fresh manager: no pool, not connected, nothing called yet. */
  function NewConnection(config: MySQLConfig, queryTimeout: int): (c: Conn)
    ensures Valid(c) && c.pool.None? && !c.isConnected && c.trace == []
  {
    Conn(config, queryTimeout, None, false, [], 0, 0, 0, 0)
  }

  /**
   * The resting-state invariant: connected only with a pool, every acquired
   * connection released, and every pool but the current one ended.
   */
  predicate Valid(c: Conn) {
    && (c.isConnected ==> c.pool.Some?)
    && c.acquired == c.released
    && c.poolsCreated == c.poolsEnded + (if c.pool.Some? then 1 else 0)
  }

  /** `c2` is `c1` after further driver calls: same settings, trace extended. */
  predicate Extends(c1: Conn, c2: Conn) {
    && c2.config == c1.config
    && c2.queryTimeout == c1.queryTimeout
    && |c1.trace| <= |c2.trace|
    && c2.trace[..|c1.trace|] == c1.trace
    && c1.acquired <= c2.acquired
    && c1.released <= c2.released
  }

  /** The SQL statements, in order, among the calls of `trace` (session-timeout settings excluded). */
  function Statements(trace: seq<DriverCall>): seq<string> {
    if |trace| == 0 then []
    else
      var last := trace[|trace| - 1];
      Statements(trace[..|trace| - 1]) + (if last.RunQuery? then [last.sql] else [])
  }

  lemma ExtendsTransitive(c1: Conn, c2: Conn, c3: Conn)
    requires Extends(c1, c2) && Extends(c2, c3)
    ensures Extends(c1, c3)
  {
    assert c3.trace[..|c1.trace|] == c3.trace[..|c2.trace|][..|c1.trace|];
  }

  lemma StatementsSnoc(t: seq<DriverCall>, call: DriverCall)
    ensures Statements(t + [call]) == if call.RunQuery? then Statements(t) + [call.sql] else Statements(t)
  {
    assert (t + [call])[..|t|] == t;
  }

  /** Makes one driver call and records it. */
  function Call(c: Conn, d: Driver, call: DriverCall): (r: (Conn, Reply))
    ensures r.0 == c.(trace := c.trace + [call])
    ensures r.1 == d(|c.trace|, call)
    ensures Statements(r.0.trace) == if call.RunQuery? then Statements(c.trace) + [call.sql] else Statements(c.trace)
  {
    StatementsSnoc(c.trace, call);
    (c.(trace := c.trace + [call]), d(|c.trace|, call))
  }

  /** `connectionLimit || 10`, `timezone || 'local'`, `charset || 'utf8mb4'`. */
  function PoolOptionsOf(m: MySQLConfig): (o: PoolOptions)
    ensures o.connectionLimit != 0 && o.timezone != "" && o.charset != ""
    ensures o.host == m.host && o.port == m.port && o.user == m.user && o.password == m.password && o.database == m.database
    ensures m.connectionLimit.Some? && m.connectionLimit.value != 0 ==> o.connectionLimit == m.connectionLimit.value
    ensures StringTruthy(m.timezone) ==> o.timezone == m.timezone.value
    ensures StringTruthy(m.charset) ==> o.charset == m.charset.value
  {
    PoolOptions(
      m.host, m.port, m.user, m.password, m.database,
      if m.connectionLimit.Some? && m.connectionLimit.value != 0 then m.connectionLimit.value else 10,
      if StringTruthy(m.timezone) then m.timezone.value else "local",
      if StringTruthy(m.charset) then m.charset.value else "utf8mb4")
  }

  /** `Math.floor(queryTimeout / 1000) * 1000`: the timeout rounded down to whole seconds. */
  function SessionTimeoutMs(queryTimeout: int): (ms: int)
    ensures ms % 1000 == 0
    ensures ms <= queryTimeout < ms + 1000
  {
    (queryTimeout / 1000) * 1000
  }

  /** Only one value satisfies the rounding contract, so it is the floor. */
  lemma SessionTimeoutUnique(queryTimeout: int, ms: int)
    requires ms % 1000 == 0 && ms <= queryTimeout < ms + 1000
    ensures ms == SessionTimeoutMs(queryTimeout)
  {
    var f := SessionTimeoutMs(queryTimeout);
    assert (ms - f) % 1000 == 0;
    assert -1000 < ms - f < 1000;
  }

  /**
   * `ping`: borrow a connection, ping it, and give it back whether or not the
   * ping succeeded. Without a pool it fails before touching the driver.
   */
  function Ping(c: Conn, d: Driver): (r: Step<bool>)
    ensures c.pool.None? ==> r == Step(c, Err(PoolNotInitialized))
    ensures Extends(c, r.conn)
    ensures r.conn.pool == c.pool && r.conn.isConnected == c.isConnected
    ensures r.conn.poolsCreated == c.poolsCreated && r.conn.poolsEnded == c.poolsEnded
    ensures r.conn.acquired - c.acquired == r.conn.released - c.released <= 1
    ensures r.result.Ok? <==>
              c.pool.Some? && d(|c.trace|, GetConnection).Succeeded? && d(|c.trace| + 1, PingConnection).Succeeded?
    ensures r.result.Ok? ==> r.result.value && r.conn.trace == c.trace + [GetConnection, PingConnection]
    ensures c.pool.Some? && d(|c.trace|, GetConnection).Failed? ==> r.result == Err(d(|c.trace|, GetConnection).message)
    ensures c.pool.Some? && d(|c.trace|, GetConnection).Succeeded? && d(|c.trace| + 1, PingConnection).Failed? ==>
              r.result == Err(d(|c.trace| + 1, PingConnection).message)
    ensures Statements(r.conn.trace) == Statements(c.trace)
  {
    if c.pool.None? then Step(c, Err(PoolNotInitialized))
    else
      var (c1, got) := Call(c, d, GetConnection);
      if got.Failed? then Step(c1, Err(got.message))
      else
        var c2 := c1.(acquired := c1.acquired + 1);
        var (c3, pong) := Call(c2, d, PingConnection);
        var c4 := c3.(released := c3.released + 1);
        if pong.Failed? then Step(c4, Err(pong.message)) else Step(c4, Ok(true))
  }

  /**
   * `initialize`: a no-op when a pool exists; otherwise create the pool, keep
   * it, and mark the manager connected only once a ping has succeeded. A
   * failure leaves the new pool in place and the manager not connected.
   */
  function Initialize(c: Conn, d: Driver): (r: Step<()>)
    ensures c.pool.Some? ==> r == Step(c, Ok(()))
    ensures Extends(c, r.conn)
    ensures c.pool.None? ==> |r.conn.trace| > |c.trace| && r.conn.trace[|c.trace|] == CreatePool(PoolOptionsOf(c.config))
    ensures c.pool.None? ==> (r.conn.isConnected <==> r.result.Ok?)
    ensures c.pool.None? && d(|c.trace|, CreatePool(PoolOptionsOf(c.config))).Succeeded? ==> r.conn.pool.Some?
    ensures r.result.Ok? ==> r.conn.pool.Some?
    ensures r.result.Err? ==> HasPrefix(r.result.error, ConnectionFailedPrefix)
    ensures r.conn.acquired - c.acquired == r.conn.released - c.released
    ensures Valid(c) ==> Valid(r.conn)
    ensures Statements(r.conn.trace) == Statements(c.trace)
  {
    if c.pool.Some? then Step(c, Ok(()))
    else
      var (c1, created) := Call(c, d, CreatePool(PoolOptionsOf(c.config)));
      if created.Failed? then
        Step(c1.(isConnected := false), Err(ConnectionFailedPrefix + created.message))
      else
        ConnectPool(c1.(pool := Some(Pool(c1.poolsCreated)), poolsCreated := c1.poolsCreated + 1), d)
  }

  /**
   * The rest of `initialize` once the pool exists: ping it, and mark the
   * manager connected exactly when the ping succeeded.
   */
  function ConnectPool(c: Conn, d: Driver): (r: Step<()>)
    requires c.pool.Some?
    ensures Extends(c, r.conn)
    ensures r.conn.pool == c.pool && r.conn.poolsCreated == c.poolsCreated && r.conn.poolsEnded == c.poolsEnded
    ensures r.conn.acquired - c.acquired == r.conn.released - c.released
    ensures r.conn.isConnected <==> r.result.Ok?
    ensures Statements(r.conn.trace) == Statements(c.trace)
    ensures r.result.Err? ==> HasPrefix(r.result.error, ConnectionFailedPrefix)
  {
    var p := Ping(c, d);
    if p.result.Err? then
      Step(p.conn.(isConnected := false), Err(ConnectionFailedPrefix + p.result.error))
    else
      Step(p.conn.(isConnected := true), Ok(()))
  }

  /**
   * How a connection attempt from no pool ends, in terms of the driver's
   * replies: it succeeds exactly when the pool is created and a borrowed
   * connection answers the ping, after exactly those three calls; otherwise
   * the error is the connection prefix and the message of the first call
   * that failed.
   */
  predicate InitializeAnswers(c: Conn, d: Driver, r: Step<()>) {
    var n := |c.trace|;
    var create := CreatePool(PoolOptionsOf(c.config));
    var created, got, pong := d(n, create), d(n + 1, GetConnection), d(n + 2, PingConnection);
    && (r.result.Ok? <==> created.Succeeded? && got.Succeeded? && pong.Succeeded?)
    && (r.result.Ok? ==> r.conn.trace == c.trace + [create, GetConnection, PingConnection])
    && (created.Failed? ==> r.result == Err(ConnectionFailedPrefix + created.message))
    && (created.Succeeded? && got.Failed? ==> r.result == Err(ConnectionFailedPrefix + got.message))
    && (created.Succeeded? && got.Succeeded? && pong.Failed? ==> r.result == Err(ConnectionFailedPrefix + pong.message))
  }

  /**
   * From no pool, connecting succeeds only after a successful ping, and a
   * failure names the first driver call that failed.
   */
  lemma InitializePings(c: Conn, d: Driver)
    requires c.pool.None?
    ensures InitializeAnswers(c, d, Initialize(c, d))
  {
    if d(|c.trace|, CreatePool(PoolOptionsOf(c.config))).Succeeded? {
      InitializeAfterCreate(c, d);
    }
  }

  /** The case of `InitializePings` where the pool is created: the ping decides. */
  lemma InitializeAfterCreate(c: Conn, d: Driver)
    requires c.pool.None? && d(|c.trace|, CreatePool(PoolOptionsOf(c.config))).Succeeded?
    ensures InitializeAnswers(c, d, Initialize(c, d))
  {
    var create := CreatePool(PoolOptionsOf(c.config));
    var c1 := Call(c, d, create).0;
    var c2 := c1.(pool := Some(Pool(c1.poolsCreated)), poolsCreated := c1.poolsCreated + 1);
    ConnectPoolAnswers(c2, d);
    assert Initialize(c, d).result == ConnectPool(c2, d).result;
    assert Initialize(c, d).conn.trace == ConnectPool(c2, d).conn.trace;
    AppendAfterOne(c.trace, create, GetConnection, PingConnection);
  }

  /**
   * The ping decides a pool's connection: it succeeds exactly when the
   * connection request and the ping succeed, after exactly those two calls,
   * and a failure is the connection prefix and the failing call's message.
   */
  lemma ConnectPoolAnswers(c: Conn, d: Driver)
    requires c.pool.Some?
    ensures var r := ConnectPool(c, d);
            var got, pong := d(|c.trace|, GetConnection), d(|c.trace| + 1, PingConnection);
            && (r.result.Ok? <==> got.Succeeded? && pong.Succeeded?)
            && (r.result.Ok? ==> r.conn.trace == c.trace + [GetConnection, PingConnection])
            && (got.Failed? ==> r.result == Err(ConnectionFailedPrefix + got.message))
            && (got.Succeeded? && pong.Failed? ==> r.result == Err(ConnectionFailedPrefix + pong.message))
  {
  }

  /** One call and then two more is the three calls at once. */
  lemma AppendAfterOne<T>(s: seq<T>, x: T, y: T, z: T)
    ensures (s + [x]) + [y, z] == s + [x, y, z]
  {
    assert [x] + [y, z] == [x, y, z];
  }

  /** `isConnectedToDatabase`. */
  function IsConnectedToDatabase(c: Conn): bool {
    c.isConnected
  }

  /** In every valid state, a manager that reports itself connected holds a pool. */
  lemma ConnectedHasPool(c: Conn)
    requires Valid(c)
    ensures IsConnectedToDatabase(c) ==> c.pool.Some?
  {
  }

  /** Shapes a query reply: rows with their fields, or the counters of a mutating statement. */
  function ShapeReply(p: Payload): (q: QueryResult)
    ensures p.RowSet? ==> q.data == p.rows && q.fields == Some(p.fields) && q.metadata.None?
    ensures !p.RowSet? ==> q.data == [] && q.fields.None? && q.metadata.Some?
    ensures p.OkPacket? ==> q.metadata == Some(Metadata(p.affectedRows, p.insertId, p.changedRows))
    ensures q.truncated.None? && q.totalRows.None?
  {
    match p
    case RowSet(rows, fields) => QueryResult(rows, Some(fields), None, None, None)
    case OkPacket(affected, insertId, changed) => QueryResult([], None, Some(Metadata(affected, insertId, changed)), None, None)
    // The driver answers every successful query with rows or a packet, so this case does not arise. The code
    // would throw on `'changedRows' in rows` here; the model reads it as a packet without counters instead.
    case NoPayload => QueryResult([], None, Some(Metadata(0, 0, None)), None, None)
  }

  /** The last call in the trace ran `sql`, the driver accepted it, and `q` is its shaped reply. */
  predicate AnsweredBy(c: Conn, d: Driver, sql: string, params: Value, q: QueryResult) {
    && |c.trace| > 0
    && c.trace[|c.trace| - 1] == RunQuery(sql, params)
    && d(|c.trace| - 1, RunQuery(sql, params)).Succeeded?
    && q == ShapeReply(d(|c.trace| - 1, RunQuery(sql, params)).payload)
  }

  /**
   * `executeQuery`: connect lazily when there is no pool, borrow a
   * connection, set the session timeout, run the statement, shape the reply,
   * and give the connection back on every path once it was borrowed.
   */
  function ExecuteQuery(c: Conn, d: Driver, sql: string, params: Value): (r: Step<QueryResult>)
    ensures Extends(c, r.conn)
    ensures r.conn.acquired - c.acquired == r.conn.released - c.released
    ensures Valid(c) ==> Valid(r.conn)
    ensures c.pool.Some? ==> r.conn.pool == c.pool && r.conn.isConnected == c.isConnected
    ensures c.pool.None? ==> |r.conn.trace| > |c.trace| && r.conn.trace[|c.trace|] == CreatePool(PoolOptionsOf(c.config))
    ensures r.result.Ok? ==> r.conn.pool.Some? && AnsweredBy(r.conn, d, sql, params, r.result.value)
    ensures Statements(r.conn.trace) in {Statements(c.trace), Statements(c.trace) + [sql]}
    ensures r.result.Ok? ==> Statements(r.conn.trace) == Statements(c.trace) + [sql]
  {
    if c.pool.Some? then QueryOnPool(c, d, sql, params) else ConnectThenQuery(c, d, sql, params)
  }

  /** The lazy branch of `executeQuery`: connect first, then query the new pool. */
  function ConnectThenQuery(c: Conn, d: Driver, sql: string, params: Value): (r: Step<QueryResult>)
    requires c.pool.None?
    ensures Extends(c, r.conn)
    ensures r.conn.acquired - c.acquired == r.conn.released - c.released
    ensures Valid(c) ==> Valid(r.conn)
    ensures |r.conn.trace| > |c.trace| && r.conn.trace[|c.trace|] == CreatePool(PoolOptionsOf(c.config))
    ensures r.result.Ok? ==> r.conn.pool.Some? && AnsweredBy(r.conn, d, sql, params, r.result.value)
    ensures Statements(r.conn.trace) in {Statements(c.trace), Statements(c.trace) + [sql]}
    ensures r.result.Ok? ==> Statements(r.conn.trace) == Statements(c.trace) + [sql]
  {
    var init := Initialize(c, d);
    if init.result.Err? then Step(init.conn, Err(init.result.error))
    else if init.conn.pool.None? then Step(init.conn, Err(PoolNotInitialized))
    else QueryOnPool(init.conn, d, sql, params)
  }

  /**
   * The part of `executeQuery` that runs once a pool exists. It first
   * borrows a connection: if that fails, the driver's error surfaces
   * unwrapped and there is nothing to give back; otherwise the next call sets
   * the session timeout, rounded down to whole seconds, before any statement
   * runs, and the connection is given back exactly once.
   */
  function QueryOnPool(c: Conn, d: Driver, sql: string, params: Value): (r: Step<QueryResult>)
    requires c.pool.Some?
    ensures Extends(c, r.conn)
    ensures r.conn.acquired - c.acquired == r.conn.released - c.released <= 1
    ensures r.conn.pool == c.pool && r.conn.isConnected == c.isConnected
    ensures r.conn.poolsCreated == c.poolsCreated && r.conn.poolsEnded == c.poolsEnded
    ensures |r.conn.trace| > |c.trace| && r.conn.trace[|c.trace|] == GetConnection
    ensures d(|c.trace|, GetConnection).Failed? ==>
              r.result == Err(d(|c.trace|, GetConnection).message) && r.conn.acquired == c.acquired
    ensures d(|c.trace|, GetConnection).Succeeded? ==>
              r.conn.acquired == c.acquired + 1 && BorrowedAnswers(c.trace + [GetConnection], c.queryTimeout, d, sql, params, r)
    ensures r.result.Ok? ==> AnsweredBy(r.conn, d, sql, params, r.result.value)
    ensures Statements(r.conn.trace) in {Statements(c.trace), Statements(c.trace) + [sql]}
    ensures r.result.Ok? ==> Statements(r.conn.trace) == Statements(c.trace) + [sql]
  {
    var (c1, got) := Call(c, d, GetConnection);
    if got.Failed? then Step(c1, Err(got.message))
    else RunBorrowed(c1.(acquired := c1.acquired + 1), d, sql, params)
  }

  /**
   * How the two calls on a connection borrowed after the calls `before`
   * decide the answer: a failed session-timeout call or a rejected statement
   * fails with "Query failed: " and the driver's message; otherwise the answer
   * is the statement's shaped reply. The statement is issued only after the
   * timeout was accepted.
   */
  predicate BorrowedAnswers(before: seq<DriverCall>, queryTimeout: int, d: Driver, sql: string, params: Value, r: Step<QueryResult>) {
    var n, timeout := |before|, SetSessionTimeout(SessionTimeoutMs(queryTimeout));
    var limit, rows := d(n, timeout), d(n + 1, RunQuery(sql, params));
    && (limit.Failed? ==> r.conn.trace == before + [timeout])
    && (limit.Succeeded? ==> r.conn.trace == before + [timeout, RunQuery(sql, params)])
    && (limit.Failed? ==> r.result == Err(QueryFailedPrefix + limit.message))
    && (limit.Succeeded? && rows.Failed? ==> r.result == Err(QueryFailedPrefix + rows.message))
    && (limit.Succeeded? && rows.Succeeded? ==> r.result == Ok(ShapeReply(rows.payload)))
  }

  /**
   * The statements run on a borrowed connection: set the session timeout,
   * run the query, shape the reply, and give the connection back whatever
   * happened.
   */
  function RunBorrowed(c: Conn, d: Driver, sql: string, params: Value): (r: Step<QueryResult>)
    ensures Extends(c, r.conn)
    ensures r.conn.acquired == c.acquired && r.conn.released == c.released + 1
    ensures r.conn.pool == c.pool && r.conn.isConnected == c.isConnected
    ensures r.conn.poolsCreated == c.poolsCreated && r.conn.poolsEnded == c.poolsEnded
    ensures |r.conn.trace| > |c.trace| && r.conn.trace[|c.trace|] == SetSessionTimeout(SessionTimeoutMs(c.queryTimeout))
    ensures r.result.Ok? ==> AnsweredBy(r.conn, d, sql, params, r.result.value)
    ensures BorrowedAnswers(c.trace, c.queryTimeout, d, sql, params, r)
    ensures Statements(r.conn.trace) in {Statements(c.trace), Statements(c.trace) + [sql]}
    ensures r.result.Ok? ==> Statements(r.conn.trace) == Statements(c.trace) + [sql]
  {
    var (c1, setReply) := Call(c, d, SetSessionTimeout(SessionTimeoutMs(c.queryTimeout)));
    if setReply.Failed? then Step(c1.(released := c1.released + 1), Err(QueryFailedPrefix + setReply.message))
    else
      var (c2, rows) := Call(c1, d, RunQuery(sql, params));
      ExtendsTransitive(c, c1, c2);
      var c3 := c2.(released := c2.released + 1);
      if rows.Failed? then Step(c3, Err(QueryFailedPrefix + rows.message))
      else Step(c3, Ok(ShapeReply(rows.payload)))
  }

  /** A statement the driver rejects surfaces as "Query failed: <message>", with the connection given back. */
  lemma ExecuteQueryFailure(c: Conn, d: Driver, sql: string, params: Value)
    requires c.pool.Some?
    requires d(|c.trace|, GetConnection).Succeeded?
    requires d(|c.trace| + 1, SetSessionTimeout(SessionTimeoutMs(c.queryTimeout))).Succeeded?
    requires d(|c.trace| + 2, RunQuery(sql, params)).Failed?
    ensures ExecuteQuery(c, d, sql, params).result == Err(QueryFailedPrefix + d(|c.trace| + 2, RunQuery(sql, params)).message)
    ensures ExecuteQuery(c, d, sql, params).conn.released == c.released + 1
  {
  }

  /** A statement the driver accepts, after a connection and the session timeout were granted, answers its shaped reply. */
  lemma ExecuteQuerySucceeds(c: Conn, d: Driver, sql: string, params: Value)
    requires c.pool.Some?
    requires d(|c.trace|, GetConnection).Succeeded?
    requires d(|c.trace| + 1, SetSessionTimeout(SessionTimeoutMs(c.queryTimeout))).Succeeded?
    requires d(|c.trace| + 2, RunQuery(sql, params)).Succeeded?
    ensures ExecuteQuery(c, d, sql, params).result == Ok(ShapeReply(d(|c.trace| + 2, RunQuery(sql, params)).payload))
    ensures ExecuteQuery(c, d, sql, params).conn.trace
         == c.trace + [GetConnection, SetSessionTimeout(SessionTimeoutMs(c.queryTimeout)), RunQuery(sql, params)]
  {
    ExecuteQueryOnPool(c, d, sql, params);
    AppendAfterOne(c.trace, GetConnection, SetSessionTimeout(SessionTimeoutMs(c.queryTimeout)), RunQuery(sql, params));
  }

  /** A refused session timeout fails the query with "Query failed: <message>" before the statement runs. */
  lemma ExecuteQuerySetFailure(c: Conn, d: Driver, sql: string, params: Value)
    requires c.pool.Some?
    requires d(|c.trace|, GetConnection).Succeeded?
    requires d(|c.trace| + 1, SetSessionTimeout(SessionTimeoutMs(c.queryTimeout))).Failed?
    ensures ExecuteQuery(c, d, sql, params).result
         == Err(QueryFailedPrefix + d(|c.trace| + 1, SetSessionTimeout(SessionTimeoutMs(c.queryTimeout))).message)
    ensures ExecuteQuery(c, d, sql, params).conn.trace == c.trace + [GetConnection, SetSessionTimeout(SessionTimeoutMs(c.queryTimeout))]
    ensures ExecuteQuery(c, d, sql, params).conn.released == c.released + 1
  {
    ExecuteQueryOnPool(c, d, sql, params);
  }

  /** With a pool, a query goes straight to the pool. */
  lemma ExecuteQueryOnPool(c: Conn, d: Driver, sql: string, params: Value)
    requires c.pool.Some?
    ensures ExecuteQuery(c, d, sql, params) == QueryOnPool(c, d, sql, params)
  {
  }

  /**
   * Without a pool, a query first connects. If that fails the query fails
   * with the connection error and runs no statement.
   */
  lemma ExecuteQueryConnectsLazily(c: Conn, d: Driver, sql: string, params: Value)
    requires c.pool.None?
    ensures var r := ExecuteQuery(c, d, sql, params);
            var i := Initialize(c, d);
            && (i.result.Err? ==> r == Step(i.conn, Err(i.result.error)))
            && (i.result.Ok? ==> r == ExecuteQuery(i.conn, d, sql, params))
  {
  }

  /** `close`: end the pool if there is one, then forget it; without a pool nothing happens. */
  function Close(c: Conn, d: Driver): (r: Step<()>)
    ensures c.pool.None? ==> r == Step(c, Ok(()))
    ensures Extends(c, r.conn)
    ensures r.conn.acquired == c.acquired && r.conn.released == c.released
    ensures r.result.Ok? ==> r.conn.pool.None?
    ensures r.result.Ok? && c.pool.Some? ==> !r.conn.isConnected
    ensures r.result.Err? ==> r.conn.pool == c.pool && r.conn.isConnected == c.isConnected
    ensures c.pool.Some? ==> r.conn.trace == c.trace + [EndPool]
    ensures c.pool.Some? ==> (r.result.Ok? <==> d(|c.trace|, EndPool).Succeeded?)
    ensures c.pool.Some? && d(|c.trace|, EndPool).Failed? ==> r.result == Err(d(|c.trace|, EndPool).message)
    ensures Valid(c) ==> Valid(r.conn)
  {
    if c.pool.None? then Step(c, Ok(()))
    else
      var (c1, ended) := Call(c, d, EndPool);
      if ended.Failed? then Step(c1, Err(ended.message))
      else Step(c1.(pool := None, isConnected := false, poolsEnded := c1.poolsEnded + 1), Ok(()))
  }

  /** Closing twice is closing once: the second close finds no pool and changes nothing. */
  lemma CloseIdempotent(c: Conn, d: Driver)
    requires Close(c, d).result.Ok?
    ensures Close(Close(c, d).conn, d) == Step(Close(c, d).conn, Ok(()))
  {
  }
}

=== FILE: framing.dfy ===
/**
 * Newline-delimited message framing of the stdio transport: the input buffer
 * is cut at each `'\n'`, every complete line is trimmed, blank lines are
 * skipped, and the rest is parsed as JSON; what follows the last newline
 * waits in the buffer for the next chunk. Output frames are written one per
 * line the same way.
 */
module Framing {
  import opened Wrappers
  import opened Js

  const Newline: char := '\n'

  /** The error frame text for a line that is not JSON. */
  const MalformedJsonPrefix: string := "不正なJSON形式: "

  /** `s.indexOf(c)`: the first position of `c`, or -1. */
  function IndexOf(s: string, c: char): (r: int)
    ensures -1 <= r < |s|
    ensures r == -1 <==> c !in s
    ensures r >= 0 ==> s[r] == c && c !in s[..r]
  {
    if |s| == 0 then -1
    else if s[0] == c then 0
    else
      var k := IndexOf(s[1..], c);
      assert s[1..][..if k < 0 then 0 else k] == s[1..if k < 0 then 1 else k + 1];
      if k < 0 then -1 else k + 1
  }

  /** Each line followed by a newline: what a writer of `lines` sends. */
  function JoinLines(lines: seq<string>): string {
    if |lines| == 0 then "" else lines[0] + [Newline] + JoinLines(lines[1..])
  }

  lemma {:induction false} JoinLinesAppend(a: seq<string>, b: seq<string>)
    ensures JoinLines(a + b) == JoinLines(a) + JoinLines(b)
  {
    if |a| > 0 {
      assert (a + b)[1..] == a[1..] + b;
      JoinLinesAppend(a[1..], b);
    } else {
      assert a + b == b;
    }
  }

  /** None of the strings holds a newline. */
  predicate NoNewlines(lines: seq<string>) {
    forall i :: 0 <= i < |lines| ==> Newline !in lines[i]
  }

  /**
   * The cut `processBuffer` makes: the complete lines (newline removed,
   * not yet trimmed) and the incomplete tail kept in the buffer.
   */
  function SplitLines(b: string): (r: (seq<string>, string))
    ensures JoinLines(r.0) + r.1 == b
    ensures NoNewlines(r.0) && Newline !in r.1
    ensures r.0 == [] <==> Newline !in b
    decreases |b|
  {
    var i := IndexOf(b, Newline);
    if i < 0 then ([], b)
    else
      var tail := SplitLines(b[i + 1..]);
      SplitStep(b, i, tail.0, tail.1);
      ([b[..i]] + tail.0, tail.1)
  }

  /** Putting the first line back in front of the cut of the rest. */
  lemma SplitStep(b: string, i: int, lines: seq<string>, rest: string)
    requires 0 <= i < |b| && b[i] == Newline && Newline !in b[..i]
    requires JoinLines(lines) + rest == b[i + 1..] && NoNewlines(lines)
    ensures JoinLines([b[..i]] + lines) + rest == b
    ensures NoNewlines([b[..i]] + lines)
  {
    var all := [b[..i]] + lines;
    assert all[0] == b[..i] && all[1..] == lines;
    assert b == b[..i] + [Newline] + b[i + 1..];
    assert NoNewlines(all) by {
      forall j | 0 <= j < |all| ensures Newline !in all[j] {
        if j > 0 { assert all[j] == lines[j - 1]; }
      }
    }
  }

  /**
   * The cut is unique: lines without newlines, written one per line and
   * followed by a newline-free tail, are cut back into exactly those lines
   * and that tail.
   */
  lemma {:induction false} SplitJoin(lines: seq<string>, rest: string)
    requires NoNewlines(lines) && Newline !in rest
    ensures SplitLines(JoinLines(lines) + rest) == (lines, rest)
    decreases |lines|
  {
    var b := JoinLines(lines) + rest;
    if |lines| == 0 {
      assert b == rest;
    } else {
      var head := lines[0];
      var after := JoinLines(lines[1..]) + rest;
      assert b == head + ([Newline] + after);
      assert b[..|head|] == head;
      assert b[|head|] == Newline;
      IndexOfFirst(b, Newline, |head|);
      assert b[|head| + 1..] == after;
      SplitJoin(lines[1..], rest);
      assert SplitLines(b) == ([head] + lines[1..], rest);
      assert [head] + lines[1..] == lines;
    }
  }

  /** A position holding `c` with no `c` before it is where `indexOf` finds `c`. */
  lemma IndexOfFirst(s: string, c: char, k: int)
    requires 0 <= k < |s| && s[k] == c && c !in s[..k]
    ensures IndexOf(s, c) == k
  {
    var r := IndexOf(s, c);
    assert s[k] == c;
    assert forall j :: 0 <= j < k ==> s[..k][j] == s[j];
    assert forall j :: 0 <= j < r ==> s[..r][j] == s[j];
  }

  lemma NoNewlinesAppend(x: seq<string>, y: seq<string>)
    requires NoNewlines(x) && NoNewlines(y)
    ensures NoNewlines(x + y)
  {
    forall i | 0 <= i < |x + y|
      ensures Newline !in (x + y)[i]
    {
      if i < |x| {
        assert (x + y)[i] == x[i];
      } else {
        assert (x + y)[i] == y[i - |x|];
      }
    }
  }

  lemma JoinChunked(x: seq<string>, xRest: string, y: seq<string>, yRest: string, b: string, c: string)
    requires JoinLines(x) + xRest == b
    requires JoinLines(y) + yRest == xRest + c
    ensures JoinLines(x + y) + yRest == b + c
  {
    JoinLinesAppend(x, y);
    calc {
      JoinLines(x + y) + yRest;
      JoinLines(x) + (JoinLines(y) + yRest);
      JoinLines(x) + (xRest + c);
      (JoinLines(x) + xRest) + c;
    }
  }

  /**
   * Feeding the input in two chunks cuts the same lines as feeding it at
   * once: the tail left by the first chunk is completed by the second.
   */
  lemma SplitLinesChunked(b: string, c: string)
    ensures var first := SplitLines(b);
            var second := SplitLines(first.1 + c);
            SplitLines(b + c) == (first.0 + second.0, second.1)
  {
    var first := SplitLines(b);
    var second := SplitLines(first.1 + c);
    JoinChunked(first.0, first.1, second.0, second.1, b, c);
    NoNewlinesAppend(first.0, second.0);
    SplitJoin(first.0 + second.0, second.1);
  }

  /** What a batch of lines yields: the parsed messages, and the error texts of lines that did not parse. */
  datatype Batch = Batch(messages: seq<Value>, errors: seq<string>)

  /** One complete line: blank lines are skipped, others parsed or reported. */
  function ProcessLine(line: string, parse: string -> Option<Value>): (r: Batch)
    ensures |r.messages| + |r.errors| <= 1
    ensures IsBlank(line) <==> r == Batch([], [])
    ensures !IsBlank(line) && parse(Trim(line)).Some? ==> r == Batch([parse(Trim(line)).value], [])
    ensures !IsBlank(line) && parse(Trim(line)).None? ==> r == Batch([], [MalformedJsonPrefix + Trim(line)])
  {
    ProcessText(Trim(line), parse)
  }

  /** A trimmed line: skipped when empty, else parsed or reported. */
  function ProcessText(text: string, parse: string -> Option<Value>): Batch {
    if text == "" then Batch([], [])
    else match parse(text)
      case Some(v) => Batch([v], [])
      case None => Batch([], [MalformedJsonPrefix + text])
  }

  function Append(a: Batch, b: Batch): Batch {
    Batch(a.messages + b.messages, a.errors + b.errors)
  }

  /** `step` applied to each line in order, the batches concatenated. */
  function Collect(lines: seq<string>, step: string -> Batch): Batch {
    if |lines| == 0 then Batch([], [])
    else Append(Collect(lines[..|lines| - 1], step), step(lines[|lines| - 1]))
  }

  lemma {:induction false} CollectAppend(a: seq<string>, b: seq<string>, step: string -> Batch)
    ensures Collect(a + b, step) == Append(Collect(a, step), Collect(b, step))
    decreases |b|
  {
    if |b| == 0 {
      assert a + b == a;
    } else {
      var ab := a + b;
      assert ab[..|ab| - 1] == a + b[..|b| - 1];
      CollectAppend(a, b[..|b| - 1], step);
    }
  }

  lemma {:induction false} CollectMessages(lines: seq<string>, step: string -> Batch, values: seq<Value>)
    requires |lines| == |values|
    requires forall i :: 0 <= i < |lines| ==> step(lines[i]) == Batch([values[i]], [])
    ensures Collect(lines, step) == Batch(values, [])
    decreases |lines|
  {
    if |lines| > 0 {
      CollectMessages(lines[..|lines| - 1], step, values[..|values| - 1]);
      assert values[..|values| - 1] + [values[|values| - 1]] == values;
    }
  }

  /** The lines in order, each processed on its own. */
  function ProcessLines(lines: seq<string>, parse: string -> Option<Value>): Batch {
    Collect(lines, line => ProcessLine(line, parse))
  }

  /** Processing distributes over concatenation of line sequences. */
  lemma ProcessLinesAppend(a: seq<string>, b: seq<string>, parse: string -> Option<Value>)
    ensures ProcessLines(a + b, parse) == Append(ProcessLines(a, parse), ProcessLines(b, parse))
  {
    CollectAppend(a, b, line => ProcessLine(line, parse));
  }

  /** Lines that are all well-formed JSON yield their messages, in order, and no error. */
  lemma ProcessLinesAllParse(lines: seq<string>, parse: string -> Option<Value>, values: seq<Value>)
    requires |lines| == |values|
    requires forall i :: 0 <= i < |lines| ==> !IsBlank(lines[i]) && parse(Trim(lines[i])) == Some(values[i])
    ensures ProcessLines(lines, parse) == Batch(values, [])
  {
    CollectMessages(lines, line => ProcessLine(line, parse), values);
  }

  /**
   * `processBuffer`: cut complete lines off the front of the buffer one at a
   * time, collecting parsed messages and malformed-line errors, and return
   * the unconsumed tail as the new buffer.
   */
  method ProcessBuffer(buffer: string, parse: string -> Option<Value>) returns (messages: seq<Value>, errors: seq<string>, rest: string)
    ensures rest == SplitLines(buffer).1 && Newline !in rest
    ensures Batch(messages, errors) == ProcessLines(SplitLines(buffer).0, parse)
  {
    ghost var consumed: seq<string> := [];
    var buf := buffer;
    messages, errors := [], [];
    var i := IndexOf(buf, Newline);
    while i != -1
      invariant buffer == JoinLines(consumed) + buf && NoNewlines(consumed)
      invariant i == IndexOf(buf, Newline)
      invariant Batch(messages, errors) == ProcessLines(consumed, parse)
      decreases |buf|
    {
      var line := buf[..i];
      AdvanceLine(buffer, consumed, buf, i);
      ProcessLinesSnoc(consumed, line, parse);
      buf := buf[i + 1..];
      var step := ProcessText(Trim(line), parse);
      messages, errors := messages + step.messages, errors + step.errors;
      consumed := consumed + [line];
      i := IndexOf(buf, Newline);
    }
    SplitJoin(consumed, buf);
    rest := buf;
  }

  /** One turn of the loop: the line before the first newline moves from the buffer to the consumed lines. */
  lemma AdvanceLine(buffer: string, consumed: seq<string>, buf: string, i: int)
    requires buffer == JoinLines(consumed) + buf && NoNewlines(consumed)
    requires 0 <= i && i == IndexOf(buf, Newline)
    ensures buffer == JoinLines(consumed + [buf[..i]]) + buf[i + 1..]
    ensures NoNewlines(consumed + [buf[..i]])
  {
    var line := buf[..i];
    var after := buf[i + 1..];
    assert buf == line + [Newline] + after by {
      assert buf[i] == Newline;
    }
    JoinLinesAppend(consumed, [line]);
    JoinLinesSingle(line);
    calc {
      JoinLines(consumed + [line]) + after;
      (JoinLines(consumed) + (line + [Newline])) + after;
      JoinLines(consumed) + ((line + [Newline]) + after);
      JoinLines(consumed) + buf;
    }
    NoNewlinesAppend(consumed, [line]);
  }

  lemma JoinLinesSingle(line: string)
    ensures JoinLines([line]) == line + [Newline]
  {
    assert [line][1..] == [];
  }

  lemma ProcessLinesSnoc(consumed: seq<string>, line: string, parse: string -> Option<Value>)
    ensures ProcessLines(consumed + [line], parse) == Append(ProcessLines(consumed, parse), ProcessText(Trim(line), parse))
  {
    assert (consumed + [line])[..|consumed|] == consumed;
  }

  /** What one chunk of input does: the batch of complete lines it finishes, and the new buffer. */
  function Feed(buffer: string, chunk: string, parse: string -> Option<Value>): (r: (Batch, string))
    ensures Newline !in r.1
    ensures Newline !in chunk ==> r == (Batch([], []), buffer + chunk) || Newline in buffer
  {
    var cut := SplitLines(buffer + chunk);
    (ProcessLines(cut.0, parse), cut.1)
  }

  /**
   * Chunk boundaries do not matter: feeding two chunks one after the other
   * yields the same messages and errors, in the same order, and the same
   * buffer, as feeding their concatenation.
   */
  lemma FeedChunked(buffer: string, c1: string, c2: string, parse: string -> Option<Value>)
    ensures var first := Feed(buffer, c1, parse);
            var second := Feed(first.1, c2, parse);
            Feed(buffer, c1 + c2, parse) == (Append(first.0, second.0), second.1)
  {
    assert buffer + (c1 + c2) == (buffer + c1) + c2;
    SplitLinesChunked(buffer + c1, c2);
    var first := SplitLines(buffer + c1);
    var second := SplitLines(first.1 + c2);
    ProcessLinesAppend(first.0, second.0, parse);
  }

  /** A frame's text that survives line splitting and trimming unchanged. */
  predicate SingleLine(text: string) {
    Newline !in text && !IsBlank(text) && Trim(text) == text
  }

  /**
   * What a reader of the output stream gets back: when every frame's text is
   * a non-empty single line without surrounding whitespace that parses back
   * to the frame, reading the written stream yields exactly the frames, in
   * order, with no errors and nothing left over.
   */
  lemma WrittenFramesReadBack(values: seq<Value>, stringify: Value -> string, parse: string -> Option<Value>)
    requires forall i :: 0 <= i < |values| ==> SingleLine(stringify(values[i])) && parse(stringify(values[i])) == Some(values[i])
    ensures var cut := SplitLines(JoinLines(Texts(values, stringify)));
            cut.1 == "" && ProcessLines(cut.0, parse) == Batch(values, [])
  {
    var lines := Texts(values, stringify);
    forall i | 0 <= i < |lines|
      ensures Newline !in lines[i] && !IsBlank(lines[i]) && parse(Trim(lines[i])) == Some(values[i])
    {
      assert SingleLine(stringify(values[i]));
    }
    assert JoinLines(lines) + "" == JoinLines(lines);
    SplitJoin(lines, "");
    ProcessLinesAllParse(lines, parse, values);
  }

  /** The text written for each value, in order. */
  function Texts(values: seq<Value>, stringify: Value -> string): (lines: seq<string>)
    ensures |lines| == |values|
    ensures forall i :: 0 <= i < |values| ==> lines[i] == stringify(values[i])
  {
    seq(|values|, i requires 0 <= i < |values| => stringify(values[i]))
  }
}

=== FILE: http_server.dfy ===
/**
 * The HTTP transport: three routes over the MCP server. `GET /` answers the
 * server definition, `POST /tools` runs a tool request taken from the JSON
 * body, and `GET /resources/<uri>` refuses every resource. A body the
 * strict JSON parser refuses (text that is not JSON, or a document whose top
 * level is not an object or an array) is answered by the error middleware,
 * whatever the route.
 */
module HttpServer {
  import opened Wrappers
  import opened Js
  import opened Types
  import opened Connection
  import McpServer
  import StdioServer

  /** The body as `bodyParser.json` leaves it: a parsed value, or the parser's error message. */
  datatype Body = Parsed(value: Value) | Malformed(message: string)

  /** The parser runs in strict mode: only an object or an array is ever handed on. */
  predicate StrictlyParsed(b: Body) {
    b.Parsed? ==> b.value.Obj? || b.value.Arr?
  }

  /** A body the strict parser can produce. */
  type ParserOutput = b: Body | StrictlyParsed(b) witness Malformed("")

  /** The request body before parsing: a JSON document, or text that is not JSON with the parser's message. */
  datatype RawBody = Document(value: Value) | NotJson(message: string)

  /**
   * `bodyParser.json` with its default `strict: true`: a document whose top
   * level is an object or an array is parsed; a string, number, boolean or
   * null at the top level is refused with a syntax error (`refusal`, worded
   * by the runtime's JSON parser), which reaches the error middleware just
   * as text that is not JSON does.
   */
  function ParseBody(raw: RawBody, refusal: string): (b: ParserOutput)
    ensures b.Parsed? <==> raw.Document? && (raw.value.Obj? || raw.value.Arr?)
    ensures b.Parsed? ==> b.value == raw.value
    ensures raw.NotJson? ==> b == Malformed(raw.message)
    ensures raw.Document? && !b.Parsed? ==> b == Malformed(refusal)
  {
    match raw
    case NotJson(message) => Malformed(message)
    case Document(value) => if value.Obj? || value.Arr? then Parsed(value) else Malformed(refusal)
  }

  /** The routes the application declares. */
  datatype Route = Root | Tools | Resource(uri: string)

  datatype Request = Request(route: Route, body: ParserOutput)

  /** A status code and the JSON value `res.json` sends. */
  datatype Response = Response(status: int, body: Value)

  const ToolNameRequired: string := "Tool name is required"
  const InvalidToolRequest: string := "Invalid tool request: "
  const InternalServerError: string := "Internal server error: "
  const ResourceUriRequired: string := "Resource URI is required"
  const ResourceNotImplemented: string := "Resource access not implemented"
  /** What calling `trim` on a tool name that is not a string throws. */
  const TrimNotAFunction: string := "toolRequest.tool.trim is not a function"

  /** `{ error }`. */
  function ErrorBody(message: string): (v: Value)
    ensures Prop(v, "error") == Some(Str(message))
    ensures Prop(v, "result").None?
  {
    Obj([Member("error", Str(message))])
  }

  /** `{ result: null, error }`. */
  function FailureBody(message: string): (v: Value)
    ensures Prop(v, "error") == Some(Str(message))
    ensures Prop(v, "result") == Some(Null)
  {
    Obj([Member("result", Null), Member("error", Str(message))])
  }

  /**
   * `POST /tools`: a falsy or blank tool name is refused; a truthy name that
   * is not a string makes `trim` throw, which is answered as an invalid
   * request; any other body is handed to `executeTool` whole, and its
   * envelope is sent back. A rejection of `executeTool` would be a 500.
   */
  function PostTools(s: McpServer.Server, exec: McpServer.Executor, request: Value): (r: (McpServer.Server, Response))
    requires McpServer.Lawful(exec)
    ensures McpServer.SameSetup(s, r.0)
    ensures Extends(s.conn, r.0.conn)
    ensures Valid(s.conn) ==> Valid(r.0.conn)
    ensures r.1.status == 200 || r.1.status == 400
    ensures r.1.status == 200 <==> StdioServer.NamePresent(Prop(request, "tool"))
    ensures r.1.status == 400 ==> r.0 == s
  {
    var tool := Prop(request, "tool");
    if !TruthyOpt(tool) then (s, Response(400, ErrorBody(ToolNameRequired)))
    else if !tool.value.Str? then (s, Response(400, FailureBody(InvalidToolRequest + TrimNotAFunction)))
    else if Trim(tool.value.s) == "" then (s, Response(400, ErrorBody(ToolNameRequired)))
    else
      var dispatch := exec(s, request);
      match dispatch.reply
      case Ok(response) => (dispatch.server, Response(200, ToolResponseToJson(response)))
      case Err(message) => (dispatch.server, Response(500, FailureBody(InternalServerError + message)))
  }

  /** `GET /resources/:uri(*)`: a blank URI is refused, every other one is not implemented. */
  function GetResource(uri: string): (r: Response)
    ensures r.status == 400 <==> IsBlank(uri)
    ensures r.status == 400 || r.status == 200
    ensures r.status == 400 ==> r.body == ErrorBody(ResourceUriRequired)
    ensures r.status == 200 ==> r.body == ResourceResponseToJson(ResourceResponse(Null, Some(ResourceNotImplemented)))
  {
    if uri == "" || Trim(uri) == "" then Response(400, ErrorBody(ResourceUriRequired))
    else Response(200, ResourceResponseToJson(ResourceResponse(Null, Some(ResourceNotImplemented))))
  }

  /** The application: the body parser first, then the route, with the error middleware behind both. */
  function Handle(s: McpServer.Server, exec: McpServer.Executor, req: Request): (r: (McpServer.Server, Response))
    requires McpServer.Lawful(exec)
    ensures McpServer.SameSetup(s, r.0)
    ensures Extends(s.conn, r.0.conn)
    ensures Valid(s.conn) ==> Valid(r.0.conn)
    ensures r.1.status == 500 <==> req.body.Malformed?
  {
    match req.body
    case Malformed(message) => (s, Response(500, ErrorBody(InternalServerError + message)))
    case Parsed(value) =>
      match req.route
      case Root => (s, Response(200, ServerDefinitionToJson(McpServer.GetServerDefinition(s))))
      case Tools => PostTools(s, exec, value)
      case Resource(uri) => (s, GetResource(uri))
  }

  /** Only a tool request that is answered with status 200 reaches, and so can change, the server. */
  lemma OnlyToolCallsChangeServer(s: McpServer.Server, exec: McpServer.Executor, req: Request)
    requires McpServer.Lawful(exec)
    requires !(req.route.Tools? && req.body.Parsed? && StdioServer.NamePresent(Prop(req.body.value, "tool")))
    ensures Handle(s, exec, req).0 == s
    ensures Handle(s, exec, req).1.status != 200 || !req.route.Tools?
  {
    if req.route.Tools? && req.body.Parsed? {
      UnnamedToolRefused(s, exec, req.body.value);
    }
  }

  /** A tool request without a non-blank string name is answered 400 and never reaches the server. */
  lemma UnnamedToolRefused(s: McpServer.Server, exec: McpServer.Executor, request: Value)
    requires McpServer.Lawful(exec)
    requires !StdioServer.NamePresent(Prop(request, "tool"))
    ensures PostTools(s, exec, request).0 == s
    ensures PostTools(s, exec, request).1.status == 400
  {
  }

  /** `GET /` on a freshly constructed server lists the four registered tools, whatever object or array was posted with it. */
  lemma RootListsTools(s: McpServer.Server, exec: McpServer.Executor, body: Value)
    requires McpServer.Lawful(exec)
    requires McpServer.Registered(s)
    requires body.Obj? || body.Arr?
    ensures var r := Handle(s, exec, Request(Root, Parsed(body)));
            var def := McpServer.GetServerDefinition(s);
            && r == (s, Response(200, ServerDefinitionToJson(def)))
            && McpServer.Names(def.tools) == McpServer.ToolNames
  {
  }

  /** A JSON document with a primitive at the top level never reaches a route: the error middleware answers 500. */
  lemma PrimitiveBodyRefused(s: McpServer.Server, exec: McpServer.Executor, route: Route, document: Value, refusal: string)
    requires McpServer.Lawful(exec)
    requires !document.Obj? && !document.Arr?
    ensures Handle(s, exec, Request(route, ParseBody(Document(document), refusal)))
            == (s, Response(500, ErrorBody(InternalServerError + refusal)))
  {
  }

  /** A named tool request is answered with status 200 and the server's envelope, exactly as `executeTool` returned it. */
  lemma PostToolsAnswer(s: McpServer.Server, exec: McpServer.Executor, request: Value)
    requires McpServer.Lawful(exec)
    requires StdioServer.NamePresent(Prop(request, "tool"))
    ensures Handle(s, exec, Request(Tools, Parsed(request)))
            == (exec(s, request).server, Response(200, ToolResponseToJson(exec(s, request).reply.value)))
  {
  }

  /**
   * Both transports run a named tool request the same way: the same server
   * afterwards, and the HTTP body is the `response` member of the stdio frame.
   */
  lemma TransportsAgree(s: McpServer.Server, exec: McpServer.Executor, request: Value)
    requires McpServer.Lawful(exec)
    requires StdioServer.NamePresent(Prop(request, "tool"))
    ensures var http := PostTools(s, exec, request);
            var stdio := StdioServer.HandleToolRequest(s, exec, request);
            && http.0 == stdio.0
            && Some(http.1.body) == Prop(StdioServer.FrameToJson(stdio.1), "response")
  {
  }

  /**
   * Where the transports differ: a truthy tool name that is not a string is
   * an invalid request over HTTP (the `trim` call throws), and a missing name
   * over stdio, which checks the type first. Neither reaches the server.
   */
  lemma NonStringToolName(s: McpServer.Server, exec: McpServer.Executor, request: Value)
    requires McpServer.Lawful(exec)
    requires TruthyOpt(Prop(request, "tool")) && !Prop(request, "tool").value.Str?
    ensures PostTools(s, exec, request) == (s, Response(400, FailureBody(InvalidToolRequest + TrimNotAFunction)))
    ensures StdioServer.HandleToolRequest(s, exec, request) == (s, StdioServer.ErrorFrame(StdioServer.ToolNameRequired))
  {
  }
}

=== FILE: js.dfy ===
/**
 * The slice of JavaScript runtime semantics the server relies on: JSON-shaped
 * values, truthiness, property reads, `String.prototype.trim`, `parseInt(s, 10)`,
 * template-literal interpolation and `Array.prototype.slice(0, end)`.
 */
module Js {
  import opened Wrappers

  /**
   * A JSON-shaped JavaScript value. Object members are kept in JavaScript
   * property order (the order `Object.keys` reports); as in a JavaScript
   * object, a key is expected to occur at most once.
   */
  datatype Value =
    | Null
    | Bool(b: bool)
    | Num(n: int)
    | Str(s: string)
    | Arr(items: seq<Value>)
    | Obj(members: seq<Member>)

  datatype Member = Member(key: string, value: Value)

  /** A JavaScript number as far as the model needs it: an integer, or the NaN that `parseInt` yields. */
  datatype Number = Int(i: int) | NaN

  /** JavaScript truthiness of a value (`if (v)`). */
  predicate Truthy(v: Value) {
    match v
    case Null => false
    case Bool(b) => b
    case Num(n) => n != 0
    case Str(s) => s != ""
    case Arr(_) => true
    case Obj(_) => true
  }

  /** Truthiness of a value that may be `undefined` (`None`). */
  predicate TruthyOpt(v: Option<Value>) {
    v.Some? && Truthy(v.value)
  }

  /** Truthiness of a number: 0 and NaN are falsy. */
  predicate NumberTruthy(n: Number) {
    n.Int? && n.i != 0
  }

  /** Truthiness of a string that may be `undefined`. */
  predicate StringTruthy(s: Option<string>) {
    s.Some? && s.value != ""
  }

  /** The value stored under `key` in `members`, looking from the front. */
  function Lookup(members: seq<Member>, key: string): (r: Option<Value>)
    ensures r.None? <==> forall i :: 0 <= i < |members| ==> members[i].key != key
    ensures r.Some? ==> Member(key, r.value) in members
    ensures |members| > 0 && members[0].key == key ==> r == Some(members[0].value)
  {
    if |members| == 0 then None
    else if members[0].key == key then Some(members[0].value)
    else
      Lookup(members[1..], key)
  }

  /**
   * The property read `v.key`. Only objects carry data properties in the
   * model; on `null` the read throws in JavaScript, which callers handle
   * before reading (see `Destructure` in the server modules).
   */
  function Prop(v: Value, key: string): (r: Option<Value>)
    ensures !v.Obj? ==> r.None?
    ensures v.Obj? ==> r == Lookup(v.members, key)
  {
    if v.Obj? then Lookup(v.members, key) else None
  }

  /** The characters `String.prototype.trim` strips: WhiteSpace and LineTerminator of ECMAScript. */
  predicate IsWhitespace(c: char) {
    || c == ' ' || c == '\t' || c == '\n' || c == '\r'
    || c == '\U{000B}' || c == '\U{000C}' || c == '\U{00A0}' || c == '\U{FEFF}'
    || c == '\U{1680}' || ('\U{2000}' <= c <= '\U{200A}')
    || c == '\U{2028}' || c == '\U{2029}' || c == '\U{202F}' || c == '\U{205F}' || c == '\U{3000}'
  }

  /** `s.startsWith(p)`. */
  predicate HasPrefix(s: string, p: string) {
    |p| <= |s| && s[..|p|] == p
  }

  /** A string that `trim` turns into the empty string. */
  predicate IsBlank(s: string) {
    forall i :: 0 <= i < |s| ==> IsWhitespace(s[i])
  }

  /** Neither starts nor ends with whitespace. */
  predicate Trimmed(s: string) {
    s == [] || (!IsWhitespace(s[0]) && !IsWhitespace(s[|s| - 1]))
  }

  /** Drops leading whitespace. */
  function TrimStart(s: string): (r: string)
    ensures |r| <= |s| && r == s[|s| - |r|..]
    ensures forall i :: 0 <= i < |s| - |r| ==> IsWhitespace(s[i])
    ensures r == [] || !IsWhitespace(r[0])
  {
    if |s| > 0 && IsWhitespace(s[0]) then TrimStart(s[1..]) else s
  }

  /** Drops trailing whitespace. */
  function TrimEnd(s: string): (r: string)
    ensures |r| <= |s| && r == s[..|r|]
    ensures forall i :: |r| <= i < |s| ==> IsWhitespace(s[i])
    ensures r == [] || !IsWhitespace(r[|r| - 1])
  {
    if |s| > 0 && IsWhitespace(s[|s| - 1]) then TrimEnd(s[..|s| - 1]) else s
  }

  /**
   * `s.trim()`: `s` with its leading and trailing whitespace removed, that is
   * the infix between two blank ends that itself neither starts nor ends with
   * whitespace.
   */
  function Trim(s: string): (r: string)
    ensures r == "" <==> IsBlank(s)
    ensures Trimmed(r)
    ensures |r| <= |s|
  {
    var t := TrimStart(s);
    var r := TrimEnd(t);
    TrimFacts(s, t, r);
    r
  }

  /** The trimmed string is the infix of `s` between a blank prefix and a blank suffix. */
  lemma TrimStrips(s: string)
    ensures exists i :: StripsTo(s, i, Trim(s))
  {
    var t := TrimStart(s);
    var r := TrimEnd(t);
    TrimFacts(s, t, r);
    BlankSlices(s, |s| - |t|);
    BlankSlices(t, |r|);
    TrimInfix(s, t, r);
    assert StripsTo(s, |s| - |t|, Trim(s));
  }

  /** `r` sits at position `i` of `s`, with only whitespace before and after it. */
  predicate StripsTo(s: string, i: int, r: string) {
    0 <= i <= |s| - |r| && r == s[i..i + |r|] && IsBlank(s[..i]) && IsBlank(s[i + |r|..])
  }

  lemma TrimFacts(s: string, t: string, r: string)
    requires t == TrimStart(s) && r == TrimEnd(t)
    ensures r == "" <==> IsBlank(s)
    ensures Trimmed(r)
    ensures |r| <= |s|
  {
    if r == "" {
      assert forall i :: 0 <= i < |t| ==> IsWhitespace(t[i]);
      assert t == [];
    } else {
      assert r[0] == t[0] == s[|s| - |t|];
    }
  }

  /** A blank prefix of `s` followed by `t`, then `r` followed by a blank tail of `t`: `r` is what stripping leaves. */
  lemma TrimInfix(s: string, t: string, r: string)
    requires |t| <= |s| && t == s[|s| - |t|..] && IsBlank(s[..|s| - |t|])
    requires |r| <= |t| && r == t[..|r|] && IsBlank(t[|r|..])
    ensures StripsTo(s, |s| - |t|, r)
  {
    var i := |s| - |t|;
    assert s[i..i + |r|] == t[..|r|];
    assert s[i + |r|..] == t[|r|..];
  }

  /** `s[..n]` and `s[n..]` are blank exactly when their characters are whitespace. */
  lemma BlankSlices(s: string, n: int)
    requires 0 <= n <= |s|
    ensures IsBlank(s[..n]) <==> forall k :: 0 <= k < n ==> IsWhitespace(s[k])
    ensures IsBlank(s[n..]) <==> forall k :: n <= k < |s| ==> IsWhitespace(s[k])
  {
    assert forall k :: 0 <= k < n ==> s[..n][k] == s[k];
    assert forall k :: n <= k < |s| ==> s[n..][k - n] == s[k];
  }

  /** The decimal digit character for `d`. */
  function DigitChar(d: nat): (c: char)
    requires d < 10
    ensures IsDigit(c)
  {
    "0123456789"[d]
  }

  predicate IsDigit(c: char) {
    '0' <= c <= '9'
  }

  predicate AllDigits(s: string) {
    forall i :: 0 <= i < |s| ==> IsDigit(s[i])
  }

  function DigitValue(c: char): (d: nat)
    requires IsDigit(c)
    ensures d < 10
  {
    (c as int - '0' as int) as nat
  }

  /** The number a string of decimal digits denotes. */
  function DigitsValue(s: string): nat
    requires AllDigits(s)
  {
    if |s| == 0 then 0 else DigitsValue(s[..|s| - 1]) * 10 + DigitValue(s[|s| - 1])
  }

  /** The decimal numeral of `n`, as `String(n)` writes it: no leading zero except in "0" itself. */
  function NatToString(n: nat): (r: string)
    ensures |r| > 0 && AllDigits(r)
    ensures DigitsValue(r) == n
    ensures r[0] == '0' <==> n == 0
    ensures n < 10 <==> |r| == 1
  {
    if n < 10 then
      var r := [DigitChar(n)];
      assert DigitValue(r[0]) == n by {
        assert "0123456789"[n] as int - '0' as int == n;
      }
      r
    else
      var prefix := NatToString(n / 10);
      var last := DigitChar(n % 10);
      var r := prefix + [last];
      assert r[..|r| - 1] == prefix;
      assert DigitValue(last) == n % 10 by {
        assert "0123456789"[n % 10] as int - '0' as int == n % 10;
      }
      r
  }

  /** `String(n)` for an integer. */
  function IntToString(n: int): (r: string)
    ensures |r| > 0 && !IsWhitespace(r[0])
  {
    if n < 0 then "-" + NatToString(-n) else NatToString(n)
  }

  /** The longest prefix of `s` made of decimal digits. */
  function LeadingDigits(s: string): (r: string)
    ensures |r| <= |s| && r == s[..|r|] && AllDigits(r)
    ensures |r| < |s| ==> !IsDigit(s[|r|])
  {
    if |s| > 0 && IsDigit(s[0]) then [s[0]] + LeadingDigits(s[1..]) else ""
  }

  /**
   * `parseInt(s, 10)`: skip leading whitespace, read an optional sign, then
   * the longest run of decimal digits; NaN when there is no digit.
   */
  function ParseInt(s: string): (r: Number)
    ensures r.NaN? <==> LeadingDigits(SignedBody(TrimStart(s)).1) == ""
  {
    var (negative, body) := SignedBody(TrimStart(s));
    var digits := LeadingDigits(body);
    if digits == "" then NaN
    else if negative then Int(-(DigitsValue(digits) as int))
    else Int(DigitsValue(digits))
  }

  /** Splits an optional leading sign off `t`: whether it was `-`, and the rest. */
  function SignedBody(t: string): (bool, string) {
    if |t| > 0 && (t[0] == '-' || t[0] == '+') then (t[0] == '-', t[1..]) else (false, t)
  }

  /** `parseInt` reads back every integer `String` writes. */
  lemma ParseIntRoundTrip(n: int)
    ensures ParseInt(IntToString(n)) == Int(n)
  {
    var s := IntToString(n);
    var m: nat := if n < 0 then -n else n;
    var digits := NatToString(m);
    assert TrimStart(s) == s;
    if n < 0 {
      assert s[1..] == digits;
      assert SignedBody(s) == (true, digits);
    } else {
      assert !IsDigit(s[0]) ==> false;
      assert SignedBody(s) == (false, digits);
    }
    LeadingDigitsOfDigits(digits);
  }

  lemma {:induction false} LeadingDigitsOfDigits(s: string)
    requires AllDigits(s)
    ensures LeadingDigits(s) == s
  {
    if |s| > 0 {
      LeadingDigitsOfDigits(s[1..]);
    }
  }

  /** `String(v)`, which is what a template literal interpolates. */
  function DisplayValue(v: Value): string
    decreases v
  {
    match v
    case Null => "null"
    case Bool(b) => if b then "true" else "false"
    case Num(n) => IntToString(n)
    case Str(s) => s
    case Arr(items) => JoinItems(items)
    case Obj(_) => "[object Object]"
  }

  /** `items.join(',')`, which writes `null` elements as the empty string. */
  function JoinItems(items: seq<Value>): string
    decreases items
  {
    if |items| == 0 then ""
    else
      var head := if items[0].Null? then "" else DisplayValue(items[0]);
      if |items| == 1 then head else head + "," + JoinItems(items[1..])
  }

  /** `String(v)` for a value that may be `undefined`. */
  function Display(v: Option<Value>): string {
    match v
    case None => "undefined"
    case Some(x) => DisplayValue(x)
  }

  /** The exclusive end index `Array.prototype.slice(0, end)` uses on an array of length `len`. */
  function SliceEnd(len: nat, end: int): (r: nat)
    ensures r <= len
    ensures 0 <= end ==> r == if end < len then end else len
    ensures end < 0 ==> r == if len + end > 0 then len + end else 0
  {
    if end < 0 then (if len + end > 0 then len + end else 0)
    else if end < len then end
    else len
  }

  predicate IsAsciiUpper(c: char) {
    'A' <= c <= 'Z'
  }

  /**
   * `s.toLowerCase()` as far as ASCII goes: each upper-case ASCII letter
   * becomes its lower-case partner and every other character stays.
   */
  function AsciiLower(s: string): (r: string)
    ensures |r| == |s|
    ensures forall i :: 0 <= i < |r| ==> !IsAsciiUpper(r[i])
    ensures forall i :: 0 <= i < |s| && !IsAsciiUpper(s[i]) ==> r[i] == s[i]
    ensures forall i :: 0 <= i < |s| && IsAsciiUpper(s[i]) ==> r[i] as int == s[i] as int + 32
  {
    seq(|s|, i requires 0 <= i < |s| => if 'A' <= s[i] <= 'Z' then (s[i] as int + 32) as char else s[i])
  }

  /**
   * A decimal numeral without a leading zero (other than "0" itself) is the
   * one `String` writes for its value: the writing is unique.
   */
  lemma {:induction false} NatToStringUnique(s: string)
    requires |s| > 0 && AllDigits(s)
    requires |s| > 1 ==> s[0] != '0'
    ensures NatToString(DigitsValue(s)) == s
  {
    var n := DigitsValue(s);
    var last := s[|s| - 1];
    assert DigitChar(DigitValue(last)) == last by {
      assert "0123456789"[DigitValue(last)] as int == last as int;
    }
    if |s| == 1 {
      assert n == DigitValue(last);
    } else {
      var prefix := s[..|s| - 1];
      assert prefix[0] == s[0];
      NatToStringUnique(prefix);
      LeadingNonZero(prefix);
      assert n / 10 == DigitsValue(prefix) && n % 10 == DigitValue(last);
      assert s == prefix + [last];
    }
  }

  /** A numeral that starts with a non-zero digit denotes a positive number. */
  lemma {:induction false} LeadingNonZero(s: string)
    requires |s| > 0 && AllDigits(s) && s[0] != '0'
    ensures DigitsValue(s) > 0
  {
    if |s| > 1 {
      var prefix := s[..|s| - 1];
      assert prefix[0] == s[0];
      LeadingNonZero(prefix);
    }
  }
}

=== FILE: mcp_server.dfy ===
/**
 * The MCP server core: a fixed registry of four tools, the dispatcher that
 * folds every outcome of a tool call into the `{result, error?}` envelope, and
 * the four tool handlers over the connection manager.
 */
module McpServer {
  import opened Wrappers
  import opened Js
  import opened Types
  import Config
  import opened Connection

  const ServerName: string := "mysql-mcp-server"
  const ServerVersion: string := "1.0.0"

  /** The handlers the registry can point at. */
  datatype ToolKind = ExecuteQueryTool | GetDatabasesTool | GetTablesTool | DescribeTableTool

  /** The published definitions, in registration order, and the name-to-handler map. */
  datatype Registry = Registry(definitions: seq<ToolDefinition>, handlers: map<string, ToolKind>)

  /** The names of `defs`, in order. */
  function Names(defs: seq<ToolDefinition>): (names: seq<string>)
    ensures |names| == |defs|
    ensures forall i :: 0 <= i < |defs| ==> names[i] == defs[i].name
  {
    seq(|defs|, i requires 0 <= i < |defs| => defs[i].name)
  }

  /** The set of names in `defs`. */
  function NameSet(defs: seq<ToolDefinition>): (names: set<string>)
    ensures forall name :: name in names <==> name in Names(defs)
  {
    set i | 0 <= i < |defs| :: defs[i].name
  }

  /** Every published tool has a handler and every handler is published. */
  predicate Consistent(reg: Registry) {
    reg.handlers.Keys == NameSet(reg.definitions)
  }

  /** `registerTool`: publish the definition and bind its name to the handler. */
  function RegisterTool(reg: Registry, def: ToolDefinition, kind: ToolKind): (r: Registry)
    ensures def.name in r.handlers && r.handlers[def.name] == kind
    ensures Consistent(reg) ==> Consistent(r)
  {
    NameSetSnoc(reg.definitions, def);
    Registry(reg.definitions + [def], reg.handlers[def.name := kind])
  }

  lemma NameSetSnoc(defs: seq<ToolDefinition>, def: ToolDefinition)
    ensures NameSet(defs + [def]) == NameSet(defs) + {def.name}
  {
    var all := defs + [def];
    assert all[|defs|] == def;
    assert forall i :: 0 <= i < |defs| ==> all[i] == defs[i];
  }

  /** Registering a tool appends its name to the published names. */
  lemma RegisterToolPublishes(reg: Registry, def: ToolDefinition, kind: ToolKind)
    ensures Names(RegisterTool(reg, def, kind).definitions) == Names(reg.definitions) + [def.name]
  {
  }

  function StringProperty(description: string): Value {
    Obj([Member("type", Str("string")), Member("description", Str(description))])
  }

  function ExecuteQuerySchema(): Value {
    Obj([Member("type", Str("object")),
         Member("properties", Obj([
           Member("query", StringProperty("実行するSQLクエリ")),
           Member("params", Obj([Member("type", Str("array")),
                                 Member("items", Obj([Member("type", Str("any"))])),
                                 Member("description", Str("クエリパラメータ（オプション）"))]))])),
         Member("required", Arr([Str("query")]))])
  }

  function GetDatabasesSchema(): Value {
    Obj([Member("type", Str("object")), Member("properties", Obj([]))])
  }

  function GetTablesSchema(): Value {
    Obj([Member("type", Str("object")),
         Member("properties", Obj([
           Member("database", StringProperty("データベース名（指定しない場合は現在選択されているデータベース）"))]))])
  }

  function DescribeTableSchema(): Value {
    Obj([Member("type", Str("object")),
         Member("properties", Obj([
           Member("table", StringProperty("テーブル名")),
           Member("database", StringProperty("データベース名（指定しない場合は現在選択されているデータベース）"))])),
         Member("required", Arr([Str("table")]))])
  }

  /** The names of the four tools, in registration order. */
  const ToolNames: seq<string> := ["execute_query", "get_databases", "get_tables", "describe_table"]

  /** The four definitions, in registration order. */
  function Definitions(): (defs: seq<ToolDefinition>)
    ensures Names(defs) == ToolNames
  {
    [ ToolDefinition("execute_query", "MySQLクエリを実行します", ExecuteQuerySchema()),
      ToolDefinition("get_databases", "利用可能なデータベースの一覧を取得します", GetDatabasesSchema()),
      ToolDefinition("get_tables", "指定したデータベース内のテーブル一覧を取得します", GetTablesSchema()),
      ToolDefinition("describe_table", "指定したテーブルの構造を取得します", DescribeTableSchema()) ]
  }

  /** The handler each registered name is bound to. */
  const Handlers: map<string, ToolKind> :=
    map["execute_query" := ExecuteQueryTool, "get_databases" := GetDatabasesTool,
        "get_tables" := GetTablesTool, "describe_table" := DescribeTableTool]

  /** `registerTools`: the four tools, registered once, in this order. */
  function RegisterTools(): (reg: Registry)
    ensures Consistent(reg)
    ensures reg.definitions == Definitions()
    ensures Names(reg.definitions) == ToolNames
    ensures reg.handlers == Handlers
  {
    var defs := Definitions();
    assert defs[0].name == ToolNames[0] && defs[1].name == ToolNames[1];
    assert defs[2].name == ToolNames[2] && defs[3].name == ToolNames[3];
    var kinds := [ExecuteQueryTool, GetDatabasesTool, GetTablesTool, DescribeTableTool];
    RegisterInOrderPublishes(defs, kinds);
    RegisterInOrderConsistent(defs, kinds);
    RegisterInOrder(defs, kinds)
  }

  /** Four `registerTool` calls in a row, starting from an empty registry. */
  function RegisterInOrder(defs: seq<ToolDefinition>, kinds: seq<ToolKind>): (reg: Registry)
    requires |defs| == 4 && |kinds| == 4
    ensures reg.handlers == map[defs[0].name := kinds[0]][defs[1].name := kinds[1]][defs[2].name := kinds[2]][defs[3].name := kinds[3]]
  {
    var r0 := Registry([], map[]);
    var r1 := RegisterTool(r0, defs[0], kinds[0]);
    var r2 := RegisterTool(r1, defs[1], kinds[1]);
    var r3 := RegisterTool(r2, defs[2], kinds[2]);
    RegisterTool(r3, defs[3], kinds[3])
  }

  /** The registry four registrations build publishes `defs`, in order. */
  lemma RegisterInOrderPublishes(defs: seq<ToolDefinition>, kinds: seq<ToolKind>)
    requires |defs| == 4 && |kinds| == 4
    ensures RegisterInOrder(defs, kinds).definitions == defs
  {
    var r1 := RegisterTool(Registry([], map[]), defs[0], kinds[0]);
    PrefixSnoc(defs, 0);
    var r2 := RegisterTool(r1, defs[1], kinds[1]);
    PrefixSnoc(defs, 1);
    var r3 := RegisterTool(r2, defs[2], kinds[2]);
    PrefixSnoc(defs, 2);
    PrefixSnoc(defs, 3);
    assert defs[..4] == defs;
  }

  lemma PrefixSnoc<T>(s: seq<T>, k: nat)
    requires k < |s|
    ensures s[..k] + [s[k]] == s[..k + 1]
  {
  }

  /** Registering one tool after another keeps the registry consistent. */
  lemma RegisterInOrderConsistent(defs: seq<ToolDefinition>, kinds: seq<ToolKind>)
    requires |defs| == 4 && |kinds| == 4
    ensures Consistent(RegisterInOrder(defs, kinds))
  {
    var r0 := Registry([], map[]);
    assert NameSet(r0.definitions) == {};
    var r1 := RegisterTool(r0, defs[0], kinds[0]);
    var r2 := RegisterTool(r1, defs[1], kinds[1]);
    var r3 := RegisterTool(r2, defs[2], kinds[2]);
    assert Consistent(RegisterTool(r3, defs[3], kinds[3]));
  }

  /** `getServerDefinition`: name, version, the tools registered on this server, no resources. */
  function GetServerDefinition(s: Server): (def: ServerDefinition)
    ensures def.name == ServerName && def.version == ServerVersion && def.resources == []
    ensures Registered(s) ==> Names(def.tools) == ToolNames
  {
    ServerDefinition(ServerName, ServerVersion, s.registry.definitions, [])
  }

  /** `this.tools.get(tool)`: only a string naming a registered tool finds a handler. */
  function LookupHandler(tool: Option<Value>): (k: Option<ToolKind>)
    ensures k.Some? <==> tool.Some? && tool.value.Str? && tool.value.s in ToolNames
    ensures k.Some? ==> k.value == Handlers[tool.value.s]
    ensures tool == Some(Str("execute_query")) ==> k == Some(ExecuteQueryTool)
    ensures tool == Some(Str("get_databases")) ==> k == Some(GetDatabasesTool)
    ensures tool == Some(Str("get_tables")) ==> k == Some(GetTablesTool)
    ensures tool == Some(Str("describe_table")) ==> k == Some(DescribeTableTool)
  {
    if tool.Some? && tool.value.Str? && tool.value.s in Handlers then Some(Handlers[tool.value.s]) else None
  }

  /**
   * The server: its configuration, the state of its one connection manager,
   * and the tools the constructor registered.
   */
  datatype Server = Server(config: AppConfig, conn: Conn, registry: Registry)

  /** The registry is the one the constructor fills. */
  predicate Registered(s: Server) {
    s.registry == RegisterTools()
  }

  /** What no tool call changes: the configuration and the registered tools. */
  predicate SameSetup(s: Server, t: Server) {
    t.config == s.config && t.registry == s.registry
  }

  /** The constructor: a manager over the configured connection settings and timeout. */
  function NewServer(config: AppConfig): (s: Server)
    ensures Valid(s.conn) && s.conn.pool.None? && s.conn.config == config.mysql
    ensures s.conn.queryTimeout == Config.GetQueryTimeout(config) && s.conn.queryTimeout != 0
    ensures s.config == config && Registered(s)
  {
    Server(config, NewConnection(config.mysql, Config.GetQueryTimeout(config)), RegisterTools())
  }

  /** What a `catch` clause can receive. */
  datatype Thrown =
    | ErrorObject(message: string)
      /** A thrown value that is neither an Error nor null/undefined: it has no `message`. */
    | NonErrorValue
      /** `null` (true) or `undefined` (false): reading `.message` on it throws again. */
    | Nullish(isNull: bool)

  /** How a handler call ended. */
  datatype Outcome = Returned(value: Value) | Threw(thrown: Thrown)

  /** A handler call: the server after it, and its outcome. */
  datatype Invocation = Invocation(server: Server, outcome: Outcome)

  /** A dispatch: the server after it, and the envelope, or the rejection of `executeTool` itself. */
  datatype Dispatch = Dispatch(server: Server, reply: Result<ToolResponse, string>)

  /** The `catch` of `executeTool`: success and failures become envelopes; only a nullish throw escapes. */
  function Envelope(o: Outcome): (r: Result<ToolResponse, string>)
    ensures o.Returned? ==> r == Ok(ToolResponse(o.value, None))
    ensures o.Threw? && o.thrown.ErrorObject? ==> r == Ok(ToolResponse(Null, Some(o.thrown.message)))
    ensures r.Err? <==> o.Threw? && o.thrown.Nullish?
    ensures r.Ok? && r.value.error.Some? ==> r.value.result == Null
  {
    match o
    case Returned(v) => Ok(ToolResponse(v, None))
    case Threw(ErrorObject(m)) => Ok(ToolResponse(Null, Some(m)))
    case Threw(NonErrorValue) => Ok(ToolResponse(Null, None))
    case Threw(Nullish(isNull)) =>
      Err("Cannot read properties of " + (if isNull then "null" else "undefined") + " (reading 'message')")
  }

  function Fail(s: Server, message: string): Invocation {
    Invocation(s, Threw(ErrorObject(message)))
  }

  /**
   * Destructuring the argument bag (`const { key } = args`): throws when the
   * bag is `undefined` or `null`, yields the bag otherwise.
   */
  function Destructure(args: Option<Value>, firstKey: string): (r: Result<Value, string>)
    ensures r.Ok? <==> args.Some? && !args.value.Null?
    ensures r.Ok? ==> r.value == args.value
  {
    if args.None? then Err("Cannot destructure property '" + firstKey + "' of 'args' as it is undefined.")
    else if args.value.Null? then Err("Cannot destructure property '" + firstKey + "' of 'args' as it is null.")
    else Ok(args.value)
  }

  const QueryExecutionFailed: string := "Query execution failed: "
  const EmptyQuery: string := "Empty query"

  /**
   * The validation `executeQuery` applies before touching the database:
   * `None` when the query may run, else the error raised.
   */
  function ValidateQuery(query: Option<Value>, params: Value, debug: bool): (e: Option<string>)
    ensures !TruthyOpt(query) ==> e == Some(EmptyQuery)
    ensures query.Some? && query.value.Str? && IsBlank(query.value.s) ==> e == Some(EmptyQuery)
    ensures e.None? <==> query.Some? && query.value.Str? && !IsBlank(query.value.s) && !(debug && params.Null?)
  {
    if !TruthyOpt(query) then Some(EmptyQuery)
    else if !query.value.Str? then Some("query.trim is not a function")
    else if Trim(query.value.s) == "" then Some(EmptyQuery)
    else if debug && params.Null? then Some("Cannot read properties of null (reading 'length')")
    else None
  }

  /**
   * Row truncation: when there are more rows than `maxResults`, keep
   * `slice(0, maxResults)`, mark the result truncated and record the length
   * kept; otherwise leave the result alone.
   */
  function Truncate(q: QueryResult, maxResults: int): (r: QueryResult)
    ensures |q.data| <= maxResults ==> r == q
    ensures |q.data| > maxResults ==> r.truncated == Some(true) && r.totalRows == Some(|r.data|)
    ensures |q.data| > maxResults && maxResults >= 0 ==> r.data == q.data[..maxResults] && r.totalRows == Some(maxResults)
    ensures |r.data| <= |q.data| && r.data == q.data[..|r.data|]
    ensures r.fields == q.fields && r.metadata == q.metadata
  {
    if |q.data| > maxResults then
      var kept := q.data[..SliceEnd(|q.data|, maxResults)];
      q.(data := kept, truncated := Some(true), totalRows := Some(|kept|))
    else q
  }

  /** With a non-negative limit, truncating again changes nothing. */
  lemma TruncateIdempotent(q: QueryResult, maxResults: int)
    requires maxResults >= 0
    ensures Truncate(Truncate(q, maxResults), maxResults) == Truncate(q, maxResults)
  {
  }

  /** With a negative limit (a negative `MAX_RESULT_SIZE`), rows are dropped from the end every time. */
  lemma TruncateNegativeLimit(q: QueryResult, maxResults: int)
    requires maxResults < 0 && |q.data| > 0
    ensures Truncate(q, maxResults).truncated == Some(true)
    ensures |Truncate(q, maxResults).data| < |q.data|
  {
  }

  /** The `execute_query` handler. */
  function ExecuteQueryHandler(s: Server, d: Driver, args: Option<Value>): (inv: Invocation)
    ensures SameSetup(s, inv.server)
    ensures inv.outcome.Threw? ==> inv.outcome.thrown.ErrorObject? && HasPrefix(inv.outcome.thrown.message, QueryExecutionFailed)
    ensures Valid(s.conn) ==> Valid(inv.server.conn)
    ensures Extends(s.conn, inv.server.conn)
  {
    match Destructure(args, "query")
    case Err(e) => Fail(s, QueryExecutionFailed + e)
    case Ok(a) =>
      var query := Prop(a, "query");
      var params := Prop(a, "params").GetOr(Arr([]));
      var invalid := ValidateQuery(query, params, s.config.debug);
      if invalid.Some? then Fail(s, QueryExecutionFailed + invalid.value)
      else RunValidQuery(s, d, query.value.s, params)
  }

  /**
   * The part of `execute_query` after validation: run the one statement and
   * answer its shaped rows, truncated to the configured limit.
   */
  function RunValidQuery(s: Server, d: Driver, sql: string, params: Value): (inv: Invocation)
    ensures SameSetup(s, inv.server)
    ensures Valid(s.conn) ==> Valid(inv.server.conn)
    ensures Extends(s.conn, inv.server.conn)
    ensures inv.outcome.Threw? ==> inv.outcome.thrown.ErrorObject? && HasPrefix(inv.outcome.thrown.message, QueryExecutionFailed)
    ensures inv.outcome.Returned? ==> Statements(inv.server.conn.trace) == Statements(s.conn.trace) + [sql]
  {
    var st := ExecuteQuery(s.conn, d, sql, params);
    var s1 := s.(conn := st.conn);
    if st.result.Err? then Fail(s1, QueryExecutionFailed + st.result.error)
    else Invocation(s1, Returned(QueryResultToJson(Truncate(st.result.value, Config.GetMaxResultSize(s.config)))))
  }

  /** A missing or blank query fails before any database call. */
  lemma EmptyQueryRejected(s: Server, d: Driver, args: Value)
    requires !args.Null?
    requires var q := Prop(args, "query"); q.None? || q.value == Null || (q.value.Str? && IsBlank(q.value.s))
    ensures ExecuteQueryHandler(s, d, Some(args)) == Invocation(s, Threw(ErrorObject("Query execution failed: Empty query")))
  {
    assert Destructure(Some(args), "query") == Ok(args);
    assert ValidateQuery(Prop(args, "query"), Prop(args, "params").GetOr(Arr([])), s.config.debug) == Some(EmptyQuery);
    assert QueryExecutionFailed + EmptyQuery == "Query execution failed: Empty query";
  }

  /**
   * A non-blank string query (with `params` not null in debug mode) runs as
   * exactly that one statement, and is answered with its shaped rows cut to
   * the configured limit, or with the manager's error behind the prefix.
   */
  lemma ExecuteQueryAnswer(s: Server, d: Driver, args: Value)
    requires !args.Null?
    requires var q := Prop(args, "query"); q.Some? && q.value.Str? && !IsBlank(q.value.s)
    requires !(s.config.debug && Prop(args, "params") == Some(Null))
    ensures var inv := ExecuteQueryHandler(s, d, Some(args));
            var sql := Prop(args, "query").value.s;
            var st := ExecuteQuery(s.conn, d, sql, Prop(args, "params").GetOr(Arr([])));
            && inv.server.conn == st.conn
            && (st.result.Ok? ==> inv.outcome == Returned(QueryResultToJson(Truncate(st.result.value, Config.GetMaxResultSize(s.config)))))
            && (st.result.Ok? ==> Statements(inv.server.conn.trace) == Statements(s.conn.trace) + [sql])
            && (st.result.Err? ==> inv.outcome == Threw(ErrorObject(QueryExecutionFailed + st.result.error)))
  {
    assert Destructure(Some(args), "query") == Ok(args);
    assert ValidateQuery(Prop(args, "query"), Prop(args, "params").GetOr(Arr([])), s.config.debug).None?;
  }

  const GetDatabasesFailed: string := "Failed to get databases: "

  /** `row.Database` for each row, in order (`undefined` read as null). */
  function DatabaseNames(rows: seq<Row>): (names: seq<Value>)
    ensures |names| == |rows|
    ensures forall i :: 0 <= i < |rows| ==> names[i] == Lookup(rows[i], "Database").GetOr(Null)
  {
    seq(|rows|, i requires 0 <= i < |rows| => Lookup(rows[i], "Database").GetOr(Null))
  }

  /** The `get_databases` handler. */
  function GetDatabasesHandler(s: Server, d: Driver): (inv: Invocation)
    ensures SameSetup(s, inv.server)
    ensures Extends(s.conn, inv.server.conn)
    ensures Valid(s.conn) ==> Valid(inv.server.conn)
    ensures inv.outcome.Threw? ==> inv.outcome.thrown.ErrorObject? && HasPrefix(inv.outcome.thrown.message, GetDatabasesFailed)
    ensures inv.outcome.Returned? ==> Statements(inv.server.conn.trace) == Statements(s.conn.trace) + ["SHOW DATABASES"]
  {
    var st := ExecuteQuery(s.conn, d, "SHOW DATABASES", Arr([]));
    var s1 := s.(conn := st.conn);
    if st.result.Err? then Fail(s1, GetDatabasesFailed + st.result.error)
    else Invocation(s1, Returned(Obj([Member("databases", Arr(DatabaseNames(st.result.value.data)))])))
  }

  /**
   * `get_databases` runs `SHOW DATABASES` and answers the `Database` column
   * of each row, in row order, or the manager's error behind its prefix.
   */
  lemma GetDatabasesAnswer(s: Server, d: Driver)
    ensures var inv := GetDatabasesHandler(s, d);
            var st := ExecuteQuery(s.conn, d, "SHOW DATABASES", Arr([]));
            && inv.server.conn == st.conn
            && (st.result.Ok? ==>
                  && AnsweredBy(st.conn, d, "SHOW DATABASES", Arr([]), st.result.value)
                  && inv.outcome == Returned(Obj([Member("databases", Arr(DatabaseNames(st.result.value.data)))])))
            && (st.result.Err? ==> inv.outcome == Threw(ErrorObject(GetDatabasesFailed + st.result.error)))
  {
  }

  /** `row[Object.keys(row)[0]]`: the first column's value (`undefined` for an empty row, read as null). */
  function FirstColumn(row: Row): (v: Value)
    ensures |row| > 0 ==> v == row[0].value
  {
    if |row| == 0 then Null else row[0].value
  }

  function FirstColumns(rows: seq<Row>): (tables: seq<Value>)
    ensures |tables| == |rows|
    ensures forall i :: 0 <= i < |rows| ==> tables[i] == FirstColumn(rows[i])
  {
    seq(|rows|, i requires 0 <= i < |rows| => FirstColumn(rows[i]))
  }

  /** The statement `get_tables` runs. */
  function TablesQuery(database: Option<Value>): (sql: string)
    ensures !TruthyOpt(database) ==> sql == "SHOW TABLES"
    ensures TruthyOpt(database) ==> sql == "SHOW TABLES FROM `" + Display(database) + "`"
  {
    if TruthyOpt(database) then "SHOW TABLES FROM `" + Display(database) + "`" else "SHOW TABLES"
  }

  const GetTablesFailed: string := "Failed to get tables: "

  /** The `get_tables` handler. */
  function GetTablesHandler(s: Server, d: Driver, args: Option<Value>): (inv: Invocation)
    ensures SameSetup(s, inv.server)
    ensures Extends(s.conn, inv.server.conn)
    ensures Valid(s.conn) ==> Valid(inv.server.conn)
    ensures inv.outcome.Threw? ==> inv.outcome.thrown.ErrorObject? && HasPrefix(inv.outcome.thrown.message, GetTablesFailed)
  {
    match Destructure(args, "database")
    case Err(e) => Fail(s, GetTablesFailed + e)
    case Ok(a) =>
      var st := ExecuteQuery(s.conn, d, TablesQuery(Prop(a, "database")), Arr([]));
      var s1 := s.(conn := st.conn);
      if st.result.Err? then Fail(s1, GetTablesFailed + st.result.error)
      else Invocation(s1, Returned(Obj([Member("tables", Arr(FirstColumns(st.result.value.data)))])))
  }

  /**
   * `get_tables` runs `SHOW TABLES`, or `SHOW TABLES FROM` the given database,
   * and answers each row's first-column value in row order.
   */
  lemma GetTablesAnswer(s: Server, d: Driver, args: Value)
    requires !args.Null?
    ensures var inv := GetTablesHandler(s, d, Some(args));
            var sql := TablesQuery(Prop(args, "database"));
            var st := ExecuteQuery(s.conn, d, sql, Arr([]));
            && inv.server.conn == st.conn
            && (st.result.Ok? ==>
                  && inv.outcome == Returned(Obj([Member("tables", Arr(FirstColumns(st.result.value.data)))]))
                  && Statements(inv.server.conn.trace) == Statements(s.conn.trace) + [sql])
            && (st.result.Err? ==> inv.outcome == Threw(ErrorObject(GetTablesFailed + st.result.error)))
  {
    assert Destructure(Some(args), "database") == Ok(args);
  }

  const DescribeFailed: string := "Failed to describe table: "
  const CurrentDatabaseQuery: string := "SELECT DATABASE() as db"

  /** The foreign-key lookup in `INFORMATION_SCHEMA`, whitespace as in the code. */
  const ForeignKeyQuery: string :=
    "\n        SELECT \n          COLUMN_NAME, \n          REFERENCED_TABLE_NAME, \n          REFERENCED_COLUMN_NAME\n"
    + "        FROM \n          INFORMATION_SCHEMA.KEY_COLUMN_USAGE\n        WHERE \n"
    + "          TABLE_SCHEMA = ? AND\n          TABLE_NAME = ? AND\n          REFERENCED_TABLE_NAME IS NOT NULL"

  /** `` `db`.`table` `` when a database is given, `` `table` `` otherwise. */
  function TableReference(table: Option<Value>, database: Option<Value>): string {
    if TruthyOpt(database) then "`" + Display(database) + "`.`" + Display(table) + "`"
    else "`" + Display(table) + "`"
  }

  /** The database `SELECT DATABASE()` reported: `data[0]?.db`. */
  function ReportedDatabase(rows: seq<Row>): Option<Value> {
    if |rows| == 0 then None else Lookup(rows[0], "db")
  }

  /** The placeholder values `[currentDb, table]` of the foreign-key lookup (an absent table is sent as null). */
  function ForeignKeyParams(currentDb: Value, table: Option<Value>): Value {
    Arr([currentDb, table.GetOr(Null)])
  }

  /** Two appends in a row are one append of the concatenation. */
  lemma Chain<T>(x: seq<T>, y: seq<T>, z: seq<T>, a: seq<T>, b: seq<T>)
    requires y == x + a && z == y + b
    ensures z == x + (a + b)
  {
  }

  /**
   * The foreign-key stage: the connection after it, the database the keys
   * were looked up in, and the `foreignKeys` array or the driver's error.
   */
  datatype KeyStage = KeyStage(conn: Conn, currentDb: Option<Value>, result: Result<Value, string>)

  /** The statements the foreign-key stage runs. */
  function ForeignKeyPlan(database: Option<Value>, currentDb: Option<Value>): seq<string> {
    (if TruthyOpt(database) then [] else [CurrentDatabaseQuery])
    + (if TruthyOpt(currentDb) then [ForeignKeyQuery] else [])
  }

  /** The statements a successful `describe_table` runs, in order. */
  function DescribePlan(table: Option<Value>, database: Option<Value>, currentDb: Option<Value>): seq<string> {
    var ref := TableReference(table, database);
    ["DESCRIBE " + ref, "SHOW INDEX FROM " + ref] + ForeignKeyPlan(database, currentDb)
  }

  /**
   * Settles the database to look foreign keys up in: the one given, or else
   * the `db` column of the first row `SELECT DATABASE()` answers (none when
   * it answers no row).
   */
  function CurrentDatabase(c: Conn, d: Driver, database: Option<Value>): (r: KeyStage)
    ensures Extends(c, r.conn)
    ensures Valid(c) ==> Valid(r.conn)
    ensures TruthyOpt(database) ==> r == KeyStage(c, database, Ok(Null))
    ensures !TruthyOpt(database) ==>
              var st := ExecuteQuery(c, d, CurrentDatabaseQuery, Arr([]));
              && r.conn == st.conn
              && (st.result.Ok? ==> r.result.Ok? && r.currentDb == ReportedDatabase(st.result.value.data))
              && (st.result.Err? ==> r.result == Err(st.result.error))
    ensures !TruthyOpt(database) && r.result.Ok? ==>
              Statements(r.conn.trace) == Statements(c.trace) + [CurrentDatabaseQuery]
  {
    if TruthyOpt(database) then KeyStage(c, database, Ok(Null))
    else
      var st := ExecuteQuery(c, d, CurrentDatabaseQuery, Arr([]));
      if st.result.Err? then KeyStage(st.conn, database, Err(st.result.error))
      else KeyStage(st.conn, ReportedDatabase(st.result.value.data), Ok(Null))
  }

  /**
   * Looks foreign keys up, with `[currentDb, table]` as placeholder values,
   * only when a database is known, and answers an empty list otherwise.
   */
  function DescribeForeignKeys(c: Conn, d: Driver, table: Option<Value>, database: Option<Value>): (r: KeyStage)
    ensures Extends(c, r.conn)
    ensures Valid(c) ==> Valid(r.conn)
    ensures r.currentDb == CurrentDatabase(c, d, database).currentDb
    ensures r.result.Ok? ==> Statements(r.conn.trace) == Statements(c.trace) + ForeignKeyPlan(database, r.currentDb)
    ensures r.result.Ok? && !TruthyOpt(r.currentDb) ==> r.result.value == Arr([])
    ensures var known := CurrentDatabase(c, d, database);
            && (known.result.Err? ==> r == known)
            && (known.result.Ok? && TruthyOpt(known.currentDb) ==>
                  var st := ExecuteQuery(known.conn, d, ForeignKeyQuery, ForeignKeyParams(known.currentDb.value, table));
                  && r.conn == st.conn
                  && (st.result.Ok? ==> r.result == Ok(Arr(RowsToJson(st.result.value.data))))
                  && (st.result.Err? ==> r.result == Err(st.result.error)))
  {
    var known := CurrentDatabase(c, d, database);
    if known.result.Err? then known
    else if !TruthyOpt(known.currentDb) then known.(result := Ok(Arr([])))
    else
      var st := ExecuteQuery(known.conn, d, ForeignKeyQuery, ForeignKeyParams(known.currentDb.value, table));
      ExtendsTransitive(c, known.conn, st.conn);
      if st.result.Err? then KeyStage(st.conn, known.currentDb, Err(st.result.error))
      else
        Chain(Statements(c.trace), Statements(known.conn.trace), Statements(st.conn.trace),
              if TruthyOpt(database) then [] else [CurrentDatabaseQuery], [ForeignKeyQuery]);
        KeyStage(st.conn, known.currentDb, Ok(Arr(RowsToJson(st.result.value.data))))
  }

  /** The answer: `columns` and `indexes` from the two shape queries, then `foreignKeys`. */
  function DescribeAnswer(columns: QueryResult, indexes: QueryResult, foreignKeys: Value): Value {
    Obj([Member("columns", Arr(RowsToJson(columns.data))),
         Member("indexes", Arr(RowsToJson(indexes.data))),
         Member("foreignKeys", foreignKeys)])
  }

  /** The `describe_table` handler; every stage's failure is reported with one prefix. */
  function DescribeTableHandler(s: Server, d: Driver, args: Option<Value>): (inv: Invocation)
    ensures SameSetup(s, inv.server)
    ensures Extends(s.conn, inv.server.conn)
    ensures Valid(s.conn) ==> Valid(inv.server.conn)
    ensures inv.outcome.Threw? ==> inv.outcome.thrown.ErrorObject? && HasPrefix(inv.outcome.thrown.message, DescribeFailed)
  {
    match Destructure(args, "table")
    case Err(e) => Fail(s, DescribeFailed + e)
    case Ok(a) =>
      var table, database := Prop(a, "table"), Prop(a, "database");
      var ref := TableReference(table, database);
      var columns := ExecuteQuery(s.conn, d, "DESCRIBE " + ref, Arr([]));
      if columns.result.Err? then Fail(s.(conn := columns.conn), DescribeFailed + columns.result.error)
      else
        var indexes := ExecuteQuery(columns.conn, d, "SHOW INDEX FROM " + ref, Arr([]));
        ExtendsTransitive(s.conn, columns.conn, indexes.conn);
        if indexes.result.Err? then Fail(s.(conn := indexes.conn), DescribeFailed + indexes.result.error)
        else
          var keys := DescribeForeignKeys(indexes.conn, d, table, database);
          ExtendsTransitive(s.conn, indexes.conn, keys.conn);
          if keys.result.Err? then Fail(s.(conn := keys.conn), DescribeFailed + keys.result.error)
          else Invocation(s.(conn := keys.conn), Returned(DescribeAnswer(columns.result.value, indexes.result.value, keys.result.value)))
  }

  /**
   * `describe_table` runs `DESCRIBE`, then `SHOW INDEX FROM` on the
   * connection that left, then the foreign-key stage; the first failure
   * ends it with its error behind the prefix, and success answers the rows
   * of the first two queries as `columns` and `indexes` and the stage's
   * list as `foreignKeys`.
   */
  lemma DescribeTableAnswer(s: Server, d: Driver, args: Value)
    requires !args.Null?
    ensures var inv := DescribeTableHandler(s, d, Some(args));
            var table, database := Prop(args, "table"), Prop(args, "database");
            var ref := TableReference(table, database);
            var columns := ExecuteQuery(s.conn, d, "DESCRIBE " + ref, Arr([]));
            var indexes := ExecuteQuery(columns.conn, d, "SHOW INDEX FROM " + ref, Arr([]));
            var keys := DescribeForeignKeys(indexes.conn, d, table, database);
            && (columns.result.Err? ==> inv == Fail(s.(conn := columns.conn), DescribeFailed + columns.result.error))
            && (columns.result.Ok? && indexes.result.Err? ==> inv == Fail(s.(conn := indexes.conn), DescribeFailed + indexes.result.error))
            && (columns.result.Ok? && indexes.result.Ok? ==>
                  && inv.server.conn == keys.conn
                  && (keys.result.Err? ==> inv.outcome == Threw(ErrorObject(DescribeFailed + keys.result.error)))
                  && (keys.result.Ok? ==>
                        inv.outcome == Returned(DescribeAnswer(columns.result.value, indexes.result.value, keys.result.value))))
  {
    assert Destructure(Some(args), "table") == Ok(args);
  }

  /**
   * A successful `describe_table` runs `DESCRIBE`, `SHOW INDEX`, the
   * current-database query only when no database was given, and the
   * foreign-key lookup only when the database settled on is truthy.
   */
  lemma DescribeTableStatements(s: Server, d: Driver, args: Value)
    requires !args.Null?
    ensures var inv := DescribeTableHandler(s, d, Some(args));
            var table, database := Prop(args, "table"), Prop(args, "database");
            var ref := TableReference(table, database);
            var columns := ExecuteQuery(s.conn, d, "DESCRIBE " + ref, Arr([]));
            var indexes := ExecuteQuery(columns.conn, d, "SHOW INDEX FROM " + ref, Arr([]));
            var keys := DescribeForeignKeys(indexes.conn, d, table, database);
            inv.outcome.Returned? ==>
              Statements(inv.server.conn.trace) == Statements(s.conn.trace) + DescribePlan(table, database, keys.currentDb)
  {
    DescribeTableAnswer(s, d, args);
    var table, database := Prop(args, "table"), Prop(args, "database");
    var ref := TableReference(table, database);
    var columns := ExecuteQuery(s.conn, d, "DESCRIBE " + ref, Arr([]));
    var indexes := ExecuteQuery(columns.conn, d, "SHOW INDEX FROM " + ref, Arr([]));
    var keys := DescribeForeignKeys(indexes.conn, d, table, database);
    if columns.result.Ok? && indexes.result.Ok? && keys.result.Ok? {
      Chain3(Statements(s.conn.trace), Statements(columns.conn.trace), Statements(indexes.conn.trace),
             Statements(keys.conn.trace), "DESCRIBE " + ref, "SHOW INDEX FROM " + ref, ForeignKeyPlan(database, keys.currentDb));
    }
  }

  /** Two single appends and a third append are one append of the three. */
  lemma Chain3<T>(x: seq<T>, y: seq<T>, z: seq<T>, w: seq<T>, a: T, b: T, plan: seq<T>)
    requires y == x + [a] && z == y + [b] && w == z + plan
    ensures w == x + ([a, b] + plan)
  {
    assert [a, b] + plan == [a] + [b] + plan;
  }

  /** Runs the handler bound to `kind`. */
  function RunHandler(kind: ToolKind, s: Server, d: Driver, args: Option<Value>): (inv: Invocation)
    ensures SameSetup(s, inv.server)
    ensures Extends(s.conn, inv.server.conn)
    ensures Valid(s.conn) ==> Valid(inv.server.conn)
    ensures inv.outcome.Threw? ==> inv.outcome.thrown.ErrorObject?
  {
    match kind
    case ExecuteQueryTool => ExecuteQueryHandler(s, d, args)
    case GetDatabasesTool => GetDatabasesHandler(s, d)
    case GetTablesTool => GetTablesHandler(s, d, args)
    case DescribeTableTool => DescribeTableHandler(s, d, args)
  }

  /**
   * `executeTool`: look the tool up, run its handler, and fold the outcome
   * into the envelope. An unknown tool is answered without running anything.
   */
  function ExecuteTool(s: Server, d: Driver, request: Value): (r: Dispatch)
    ensures r.reply.Ok?
    ensures SameSetup(s, r.server)
    ensures Extends(s.conn, r.server.conn)
    ensures Valid(s.conn) ==> Valid(r.server.conn)
    ensures !request.Null? && LookupHandler(Prop(request, "tool")).None? ==>
              r == Dispatch(s, Ok(ToolResponse(Null, Some("Unknown tool: " + Display(Prop(request, "tool"))))))
    ensures r.reply.value.error.Some? ==> r.reply.value.result == Null
  {
    if request.Null? then
      Dispatch(s, Envelope(Threw(ErrorObject("Cannot destructure property 'tool' of 'request' as it is null."))))
    else
      var tool := Prop(request, "tool");
      var kind := LookupHandler(tool);
      if kind.None? then Dispatch(s, Ok(ToolResponse(Null, Some("Unknown tool: " + Display(tool)))))
      else
        var inv := RunHandler(kind.value, s, d, Prop(request, "arguments"));
        Dispatch(inv.server, Envelope(inv.outcome))
  }

  /** A registered tool's answer is its handler's value with no error, or its failure message with a null result. */
  lemma ExecuteToolEnvelope(s: Server, d: Driver, request: Value)
    requires !request.Null? && LookupHandler(Prop(request, "tool")).Some?
    ensures var inv := RunHandler(LookupHandler(Prop(request, "tool")).value, s, d, Prop(request, "arguments"));
            var r := ExecuteTool(s, d, request);
            && r.server == inv.server
            && (inv.outcome.Returned? ==> r.reply == Ok(ToolResponse(inv.outcome.value, None)))
            && (inv.outcome.Threw? ==> r.reply == Ok(ToolResponse(Null, Some(inv.outcome.thrown.message))))
  {
  }

  /** `executeTool` as a transport sees it: a server and a request in, a dispatch out. */
  type Executor = (Server, Value) -> Dispatch

  /**
   * What the transports rely on from `executeTool`: it never rejects, keeps
   * the configuration, and only extends the connection manager's history,
   * leaving a balanced one balanced.
   */
  ghost predicate Lawful(exec: Executor) {
    forall s: Server, request: Value ::
      && exec(s, request).reply.Ok?
      && SameSetup(s, exec(s, request).server)
      && Extends(s.conn, exec(s, request).server.conn)
      && (Valid(s.conn) ==> Valid(exec(s, request).server.conn))
  }

  /** This server's `executeTool` over the driver `d`, which the transports are handed. */
  function ServerExecutor(d: Driver): (exec: Executor)
    ensures Lawful(exec)
    ensures forall s: Server, request: Value :: exec(s, request) == ExecuteTool(s, d, request)
  {
    (s: Server, request: Value) => ExecuteTool(s, d, request)
  }

  /** Lookup is by exact name: registered names find their handler, anything else finds none. */
  lemma LookupHandlerExamples()
    ensures LookupHandler(Some(Str("execute_query"))) == Some(ExecuteQueryTool)
    ensures LookupHandler(Some(Str("no_such_tool"))).None?
  {
    assert "no_such_tool" !in Handlers;
  }

  /** `initialize` of the server: connect the manager, passing its failure on. */
  function InitializeServer(s: Server, d: Driver): (r: (Server, Result<(), string>))
    ensures SameSetup(s, r.0)
    ensures Valid(s.conn) ==> Valid(r.0.conn)
    ensures r.1.Ok? ==> r.0.conn.pool.Some?
    ensures r.0.conn == Initialize(s.conn, d).conn && r.1 == Initialize(s.conn, d).result
    ensures s.conn.pool.None? ==> InitializeAnswers(s.conn, d, Step(r.0.conn, r.1))
  {
    var st := Initialize(s.conn, d);
    if s.conn.pool.None? then
      InitializePings(s.conn, d);
      (s.(conn := st.conn), st.result)
    else
      (s.(conn := st.conn), st.result)
  }

  /** `close` of the server: close the manager. */
  function CloseServer(s: Server, d: Driver): (r: (Server, Result<(), string>))
    ensures SameSetup(s, r.0)
    ensures Valid(s.conn) ==> Valid(r.0.conn)
    ensures r.1.Ok? ==> r.0.conn.pool.None?
    ensures r.0.conn == Close(s.conn, d).conn && r.1 == Close(s.conn, d).result
    ensures s.conn.pool.Some? ==> (r.1.Ok? <==> d(|s.conn.trace|, EndPool).Succeeded?)
  {
    var st := Close(s.conn, d);
    (s.(conn := st.conn), st.result)
  }
}

=== FILE: stdio_server.dfy ===
/**
 * The stdio transport: newline-delimited JSON requests come in on standard
 * input, and every request is answered by exactly one JSON frame on standard
 * output. The server announces itself with a `server_info` frame at start-up,
 * and closes its connection manager when the input ends.
 */
module StdioServer {
  import opened Wrappers
  import opened Js
  import opened Types
  import opened Connection
  import McpServer
  import Framing

  /** One frame written to standard output. */
  datatype Frame =
    | ServerInfoFrame(info: ServerDefinition)
    | ToolResponseFrame(response: ToolResponse)
    | ResourceResponseFrame(resource: ResourceResponse)
    | ErrorFrame(error: string)

  /** The `type` member each kind of frame carries. */
  function Tag(f: Frame): string {
    match f
    case ServerInfoFrame(_) => "server_info"
    case ToolResponseFrame(_) => "tool_response"
    case ResourceResponseFrame(_) => "resource_response"
    case ErrorFrame(_) => "error"
  }

  /** The object `sendResponse` stringifies: the `type` tag first, then the payload. */
  function FrameToJson(f: Frame): (v: Value)
    ensures v.Obj? && |v.members| == 2
    ensures Prop(v, "type") == Some(Str(Tag(f)))
    ensures f.ErrorFrame? ==> Prop(v, "error") == Some(Str(f.error))
    ensures f.ToolResponseFrame? ==> Prop(v, "response") == Some(ToolResponseToJson(f.response))
  {
    var payload :=
      match f
      case ServerInfoFrame(info) => Member("info", ServerDefinitionToJson(info))
      case ToolResponseFrame(response) => Member("response", ToolResponseToJson(response))
      case ResourceResponseFrame(resource) => Member("response", ResourceResponseToJson(resource))
      case ErrorFrame(error) => Member("error", Str(error));
    Obj([Member("type", Str(Tag(f))), payload])
  }

  /** A reader of the output stream tells the kinds of frame apart by their `type` member alone. */
  lemma TagsDistinguishFrames(f: Frame, g: Frame)
    requires Prop(FrameToJson(f), "type") == Prop(FrameToJson(g), "type")
    ensures f.ServerInfoFrame? == g.ServerInfoFrame?
    ensures f.ToolResponseFrame? == g.ToolResponseFrame?
    ensures f.ResourceResponseFrame? == g.ResourceResponseFrame?
    ensures f.ErrorFrame? == g.ErrorFrame?
  {
    assert Tag(f) == Tag(g);
    assert Tag(f)[0] == Tag(g)[0];
  }

  const ToolNameRequired: string := "ツール名が必要です"
  const ToolExecutionFailed: string := "ツール実行エラー: "
  const ResourceUriRequired: string := "リソースURIが必要です"
  const ResourceNotImplemented: string := "リソースアクセスは実装されていません"
  const UnknownMessage: string := "不明なメッセージタイプまたは無効なリクエスト形式"
  /** What reading `message.type` throws when the message is JSON `null`. */
  const NullMessage: string := "Cannot read properties of null (reading 'type')"

  /** A name the transport accepts: a string that is not blank after trimming. */
  predicate NamePresent(v: Option<Value>) {
    v.Some? && v.value.Str? && !IsBlank(v.value.s)
  }

  /**
   * `handleToolRequest`: a request without a usable tool name is refused
   * without reaching the server; otherwise the server's envelope is sent
   * back, and a rejection is reported as an error frame.
   */
  function HandleToolRequest(s: McpServer.Server, exec: McpServer.Executor, request: Value): (r: (McpServer.Server, Frame))
    requires McpServer.Lawful(exec)
    ensures McpServer.SameSetup(s, r.0)
    ensures Extends(s.conn, r.0.conn)
    ensures Valid(s.conn) ==> Valid(r.0.conn)
    ensures r.1.ToolResponseFrame? <==> NamePresent(Prop(request, "tool"))
    ensures !NamePresent(Prop(request, "tool")) ==> r == (s, ErrorFrame(ToolNameRequired))
    ensures NamePresent(Prop(request, "tool")) ==>
              r == (exec(s, request).server, ToolResponseFrame(exec(s, request).reply.value))
  {
    var tool := Prop(request, "tool");
    if !(tool.Some? && tool.value.Str?) || Trim(tool.value.s) == "" then (s, ErrorFrame(ToolNameRequired))
    else
      var dispatch := exec(s, request);
      match dispatch.reply
      case Ok(response) => (dispatch.server, ToolResponseFrame(response))
      case Err(message) => (dispatch.server, ErrorFrame(ToolExecutionFailed + message))
  }

  /** With this server's own `executeTool`, a named tool request is answered by the server's envelope. */
  lemma ToolRequestReachesServer(s: McpServer.Server, d: Driver, request: Value)
    requires NamePresent(Prop(request, "tool"))
    ensures var dispatch := McpServer.ExecuteTool(s, d, request);
            HandleToolRequest(s, McpServer.ServerExecutor(d), request) == (dispatch.server, ToolResponseFrame(dispatch.reply.value))
  {
  }

  /**
   * `handleResourceRequest`: a request without a usable URI is refused;
   * every other request is answered that resources are not implemented.
   */
  function HandleResourceRequest(request: Value): (f: Frame)
    ensures f.ResourceResponseFrame? <==> NamePresent(Prop(request, "uri"))
    ensures f.ResourceResponseFrame? ==> f.resource == ResourceResponse(Null, Some(ResourceNotImplemented))
    ensures f.ErrorFrame? ==> f.error == ResourceUriRequired
  {
    var uri := Prop(request, "uri");
    if !(uri.Some? && uri.value.Str?) || Trim(uri.value.s) == "" then ErrorFrame(ResourceUriRequired)
    else ResourceResponseFrame(ResourceResponse(Null, Some(ResourceNotImplemented)))
  }

  /** The kinds of frame, without their payloads. */
  datatype Kind = ServerInfoKind | ToolResponseKind | ResourceResponseKind | ErrorKind

  function KindOf(f: Frame): Kind {
    match f
    case ServerInfoFrame(_) => ServerInfoKind
    case ToolResponseFrame(_) => ToolResponseKind
    case ResourceResponseFrame(_) => ResourceResponseKind
    case ErrorFrame(_) => ErrorKind
  }

  /**
   * Which kind of frame a message deserves, judged from the message alone:
   * only a well-formed tool request reaches the server, and it is always
   * answered with a tool response, even when the tool fails.
   */
  function ExpectedKind(message: Value): Kind {
    var kind := Prop(message, "type");
    var request := Prop(message, "request");
    if kind == Some(Str("tool_request")) && TruthyOpt(request) && NamePresent(Prop(request.value, "tool")) then
      ToolResponseKind
    else if kind == Some(Str("resource_request")) && TruthyOpt(request) && NamePresent(Prop(request.value, "uri")) then
      ResourceResponseKind
    else if kind == Some(Str("server_info_request")) then
      ServerInfoKind
    else
      ErrorKind
  }

  /** Where `handleMessage` sends a message, read from its `type` and `request` members. */
  datatype Route =
    | NullRoute
    | ToolRoute(request: Value)
    | ResourceRoute(request: Value)
    | InfoRoute
    | UnknownRoute

  function RouteOf(message: Value): (route: Route)
    ensures route.NullRoute? <==> message.Null?
    ensures route.ToolRoute? ==> Some(route.request) == Prop(message, "request")
    ensures route.ResourceRoute? ==> Some(route.request) == Prop(message, "request")
  {
    if message.Null? then NullRoute
    else
      var kind := Prop(message, "type");
      var request := Prop(message, "request");
      if kind == Some(Str("tool_request")) && TruthyOpt(request) then ToolRoute(request.value)
      else if kind == Some(Str("resource_request")) && TruthyOpt(request) then ResourceRoute(request.value)
      else if kind == Some(Str("server_info_request")) then InfoRoute
      else UnknownRoute
  }

  /**
   * `handleMessage`, with the transport's catch around it: dispatch on the
   * message's `type`; a `null` message makes the property read throw, and
   * that error is written as an error frame.
   */
  function HandleMessage(s: McpServer.Server, exec: McpServer.Executor, message: Value): (r: (McpServer.Server, Frame))
    requires McpServer.Lawful(exec)
    ensures McpServer.SameSetup(s, r.0)
    ensures Extends(s.conn, r.0.conn)
    ensures Valid(s.conn) ==> Valid(r.0.conn)
    ensures message.Null? ==> r == (s, ErrorFrame(NullMessage))
  {
    match RouteOf(message)
    case NullRoute => (s, ErrorFrame(NullMessage))
    case ToolRoute(request) => HandleToolRequest(s, exec, request)
    case ResourceRoute(request) => (s, HandleResourceRequest(request))
    case InfoRoute => (s, ServerInfoFrame(McpServer.GetServerDefinition(s)))
    case UnknownRoute => (s, ErrorFrame(UnknownMessage))
  }

  /** The kind of frame the route leads to, before any handler runs. */
  lemma RouteKind(message: Value)
    ensures var route := RouteOf(message);
            && (ExpectedKind(message) == ToolResponseKind <==> route.ToolRoute? && NamePresent(Prop(route.request, "tool")))
            && (ExpectedKind(message) == ResourceResponseKind <==> route.ResourceRoute? && NamePresent(Prop(route.request, "uri")))
            && (ExpectedKind(message) == ServerInfoKind <==> route.InfoRoute?)
  {
  }

  /** Every message is answered by the kind of frame its shape calls for. */
  lemma HandleMessageKind(s: McpServer.Server, exec: McpServer.Executor, message: Value)
    requires McpServer.Lawful(exec)
    ensures KindOf(HandleMessage(s, exec, message).1) == ExpectedKind(message)
  {
    RouteKind(message);
    var route := RouteOf(message);
    var f := HandleMessage(s, exec, message).1;
    match route
    case ToolRoute(request) =>
      assert f == HandleToolRequest(s, exec, request).1;
    case ResourceRoute(request) =>
      assert f == HandleResourceRequest(request);
    case InfoRoute =>
      assert f.ServerInfoFrame?;
    case _ =>
      assert f.ErrorFrame?;
  }

  /** Only a message answered by a tool response can change the server. */
  lemma HandleMessageKeepsServer(s: McpServer.Server, exec: McpServer.Executor, message: Value)
    requires McpServer.Lawful(exec)
    ensures var r := HandleMessage(s, exec, message);
            r.1.ToolResponseFrame? || r.0 == s
  {
  }

  /** A server-information request is answered with the definition of the server as it stands. */
  lemma ServerInfoAnswer(s: McpServer.Server, exec: McpServer.Executor, message: Value)
    requires McpServer.Lawful(exec)
    requires Prop(message, "type") == Some(Str("server_info_request"))
    ensures HandleMessage(s, exec, message) == (s, ServerInfoFrame(McpServer.GetServerDefinition(s)))
  {
    assert RouteOf(message).InfoRoute?;
  }

  /** A tool request carrying a request object is answered by `handleToolRequest` on that object. */
  lemma ToolMessageAnswered(s: McpServer.Server, exec: McpServer.Executor, message: Value)
    requires McpServer.Lawful(exec)
    requires Prop(message, "type") == Some(Str("tool_request")) && TruthyOpt(Prop(message, "request"))
    ensures HandleMessage(s, exec, message) == HandleToolRequest(s, exec, Prop(message, "request").value)
  {
  }

  /** A resource request carrying a request object is answered by `handleResourceRequest` on that object. */
  lemma ResourceMessageAnswered(s: McpServer.Server, exec: McpServer.Executor, message: Value)
    requires McpServer.Lawful(exec)
    requires Prop(message, "type") == Some(Str("resource_request")) && TruthyOpt(Prop(message, "request"))
    ensures HandleMessage(s, exec, message) == (s, HandleResourceRequest(Prop(message, "request").value))
  {
  }

  /**
   * Any other message that is not null, including a tool or resource request
   * without a truthy `request`, is refused with the unknown-message text.
   */
  lemma OtherMessageRefused(s: McpServer.Server, exec: McpServer.Executor, message: Value)
    requires McpServer.Lawful(exec)
    requires !message.Null?
    requires !(Prop(message, "type") == Some(Str("tool_request")) && TruthyOpt(Prop(message, "request")))
    requires !(Prop(message, "type") == Some(Str("resource_request")) && TruthyOpt(Prop(message, "request")))
    requires Prop(message, "type") != Some(Str("server_info_request"))
    ensures HandleMessage(s, exec, message) == (s, ErrorFrame(UnknownMessage))
  {
  }

  /** The messages of one chunk, handled one after the other. */
  function HandleAll(s: McpServer.Server, exec: McpServer.Executor, messages: seq<Value>): (r: (McpServer.Server, seq<Frame>))
    requires McpServer.Lawful(exec)
    decreases |messages|, 1
    ensures McpServer.SameSetup(s, r.0)
    ensures Extends(s.conn, r.0.conn)
    ensures Valid(s.conn) ==> Valid(r.0.conn)
    ensures |r.1| == |messages|
    ensures forall i :: 0 <= i < |messages| ==> KindOf(r.1[i]) == ExpectedKind(messages[i])
    ensures |messages| == 0 ==> r.0 == s
  {
    if |messages| == 0 then (s, []) else HandleFirst(s, exec, messages)
  }

  /** Handles the first message, then the rest with the server it left behind. */
  function HandleFirst(s: McpServer.Server, exec: McpServer.Executor, messages: seq<Value>): (r: (McpServer.Server, seq<Frame>))
    requires |messages| > 0
    requires McpServer.Lawful(exec)
    decreases |messages|, 0
    ensures McpServer.SameSetup(s, r.0)
    ensures Extends(s.conn, r.0.conn)
    ensures Valid(s.conn) ==> Valid(r.0.conn)
    ensures |r.1| == |messages|
    ensures forall i :: 0 <= i < |messages| ==> KindOf(r.1[i]) == ExpectedKind(messages[i])
  {
    var first := HandleMessage(s, exec, messages[0]);
    HandleMessageKind(s, exec, messages[0]);
    var rest := HandleAll(first.0, exec, messages[1..]);
    ExtendsTransitive(s.conn, first.0.conn, rest.0.conn);
    (rest.0, [first.1] + rest.1)
  }

  /** The transport's state: the server and the text received after the last newline. */
  datatype Session = Session(server: McpServer.Server, buffer: string)

  /** Nothing waiting in the buffer is a complete line, and the connection manager is balanced. */
  predicate SessionValid(sess: Session) {
    Framing.Newline !in sess.buffer && Valid(sess.server.conn)
  }

  /** `startStdioMCPServer`: an empty buffer, and the server-information frame. */
  function Start(s: McpServer.Server): (r: (Session, seq<Frame>))
    ensures r.0 == Session(s, "")
    ensures Valid(s.conn) ==> SessionValid(r.0)
    ensures |r.1| == 1 && r.1[0].ServerInfoFrame?
    ensures McpServer.Registered(s) ==> McpServer.Names(r.1[0].info.tools) == McpServer.ToolNames
  {
    (Session(s, ""), [ServerInfoFrame(McpServer.GetServerDefinition(s))])
  }

  /**
   * The `data` handler: append the chunk, cut off the complete lines, write
   * one error frame per malformed line, then handle the parsed messages in
   * order, one frame each.
   */
  function OnData(sess: Session, exec: McpServer.Executor, chunk: string, parse: string -> Option<Value>): (r: (Session, seq<Frame>))
    requires McpServer.Lawful(exec)
    ensures McpServer.SameSetup(sess.server, r.0.server)
    ensures Extends(sess.server.conn, r.0.server.conn)
    ensures SessionValid(sess) ==> SessionValid(r.0)
    ensures r.0.buffer == Framing.Feed(sess.buffer, chunk, parse).1
  {
    var fed := Framing.Feed(sess.buffer, chunk, parse);
    var errors := seq(|fed.0.errors|, i requires 0 <= i < |fed.0.errors| => ErrorFrame(fed.0.errors[i]));
    var handled := HandleAll(sess.server, exec, fed.0.messages);
    (Session(handled.0, fed.1), errors + handled.1)
  }

  /**
   * One frame per complete line of the chunk: first an error frame for each
   * malformed line, then a frame of the expected kind for each message.
   */
  lemma OnDataFrames(sess: Session, exec: McpServer.Executor, chunk: string, parse: string -> Option<Value>)
    requires McpServer.Lawful(exec)
    ensures var fed := Framing.Feed(sess.buffer, chunk, parse);
            var frames := OnData(sess, exec, chunk, parse).1;
            && |frames| == |fed.0.errors| + |fed.0.messages|
            && (forall i :: 0 <= i < |fed.0.errors| ==> frames[i] == ErrorFrame(fed.0.errors[i]))
            && (forall i :: 0 <= i < |fed.0.messages| ==>
                  KindOf(frames[|fed.0.errors| + i]) == ExpectedKind(fed.0.messages[i]))
  {
  }

  /** A chunk without a newline is only buffered: nothing is written and the server is untouched. */
  lemma OnDataBuffers(sess: Session, exec: McpServer.Executor, chunk: string, parse: string -> Option<Value>)
    requires McpServer.Lawful(exec)
    requires SessionValid(sess) && Framing.Newline !in chunk
    ensures OnData(sess, exec, chunk, parse) == (Session(sess.server, sess.buffer + chunk), [])
  {
    OnDataFrames(sess, exec, chunk, parse);
  }

  /**
   * The `end` handler: close the server's connection manager. A failure to
   * close is only logged, so no frame is written either way.
   */
  function OnEnd(sess: Session, d: Driver): (r: Session)
    ensures r.buffer == sess.buffer && McpServer.SameSetup(sess.server, r.server)
    ensures SessionValid(sess) ==> SessionValid(r)
    ensures McpServer.CloseServer(sess.server, d).1.Ok? ==> r.server.conn.pool.None?
    ensures r.server == McpServer.CloseServer(sess.server, d).0
    ensures sess.server.conn.pool.Some? ==> r.server.conn.trace == sess.server.conn.trace + [EndPool]
  {
    Session(McpServer.CloseServer(sess.server, d).0, sess.buffer)
  }
}

=== FILE: types.dfy ===
/**
 * The records the server passes around (tool definitions, request and
 * response envelopes, query results, configuration), and their JSON shapes.
 */
module Types {
  import opened Wrappers
  import opened Js

  datatype ToolDefinition = ToolDefinition(name: string, description: string, inputSchema: Value)

  datatype ResourceDefinition = ResourceDefinition(name: string, description: string, uriTemplate: string)

  datatype ServerDefinition = ServerDefinition(
    name: string,
    version: string,
    tools: seq<ToolDefinition>,
    resources: seq<ResourceDefinition>)

  /** The `{result, error?}` envelope every tool invocation is answered with. */
  datatype ToolResponse = ToolResponse(result: Value, error: Option<string>)

  datatype ResourceResponse = ResourceResponse(content: Value, error: Option<string>)

  /** What a mutating statement reports; `changedRows` only exists for an OK packet. */
  datatype Metadata = Metadata(affectedRows: int, insertId: int, changedRows: Option<int>)

  /** One result row: an object from column name to value, in column order. */
  type Row = seq<Member>

  /** The shaped reply of one query; `data` holds the row objects. */
  datatype QueryResult = QueryResult(
    data: seq<Row>,
    fields: Option<seq<Value>>,
    metadata: Option<Metadata>,
    truncated: Option<bool>,
    totalRows: Option<int>)

  /** Connection settings; the pool options the model keeps besides the credentials. */
  datatype MySQLConfig = MySQLConfig(
    host: string,
    port: Number,
    user: string,
    password: string,
    database: Option<string>,
    connectionLimit: Option<int>,
    timezone: Option<string>,
    charset: Option<string>)

  datatype ServerConfig = ServerConfig(port: Number, host: string)

  datatype AppConfig = AppConfig(
    server: ServerConfig,
    mysql: MySQLConfig,
    debug: bool,
    queryTimeout: Option<Number>,
    maxResultSize: Option<Number>)

  /** An object member that `JSON.stringify` writes only when its value is defined. */
  function OptionalMember(key: string, v: Option<Value>): seq<Member> {
    if v.Some? then [Member(key, v.value)] else []
  }

  function OptionalNum(n: Option<int>): Option<Value> {
    if n.Some? then Some(Num(n.value)) else None
  }

  function StrOpt(s: Option<string>): Option<Value> {
    if s.Some? then Some(Str(s.value)) else None
  }

  function ToolResponseToJson(r: ToolResponse): (v: Value)
    ensures Prop(v, "result") == Some(r.result)
    ensures Prop(v, "error") == StrOpt(r.error)
  {
    Obj([Member("result", r.result)] + OptionalMember("error", StrOpt(r.error)))
  }

  function ResourceResponseToJson(r: ResourceResponse): (v: Value)
    ensures Prop(v, "content") == Some(r.content)
    ensures Prop(v, "error") == StrOpt(r.error)
  {
    Obj([Member("content", r.content)] + OptionalMember("error", StrOpt(r.error)))
  }

  function MetadataToJson(m: Metadata): Value {
    Obj([Member("affectedRows", Num(m.affectedRows)), Member("insertId", Num(m.insertId))]
        + OptionalMember("changedRows", OptionalNum(m.changedRows)))
  }

  /** The rows as an array of objects. */
  function RowsToJson(rows: seq<Row>): (r: seq<Value>)
    ensures |r| == |rows|
  {
    seq(|rows|, i requires 0 <= i < |rows| => Obj(rows[i]))
  }

  function FieldsJson(fields: Option<seq<Value>>): Option<Value> {
    if fields.Some? then Some(Arr(fields.value)) else None
  }

  function MetadataJson(m: Option<Metadata>): Option<Value> {
    if m.Some? then Some(MetadataToJson(m.value)) else None
  }

  function BoolOpt(b: Option<bool>): Option<Value> {
    if b.Some? then Some(Bool(b.value)) else None
  }

  /** `OptionalMember(key, v) + rest` read at `k`: `v` when it is the key and set, else what `rest` holds. */
  lemma LookupOptional(key: string, v: Option<Value>, rest: seq<Member>, k: string)
    ensures Lookup(OptionalMember(key, v) + rest, k) == if k == key && v.Some? then v else Lookup(rest, k)
  {
    if v.Some? {
      assert (OptionalMember(key, v) + rest)[1..] == rest;
    } else {
      assert OptionalMember(key, v) + rest == rest;
    }
  }

  /**
   * The JSON object of a query result: the row objects under `data`, and each
   * of `fields`, `metadata`, `truncated` and `totalRows` exactly when it is set.
   */
  function QueryResultToJson(q: QueryResult): (v: Value)
    ensures Prop(v, "data") == Some(Arr(RowsToJson(q.data)))
    ensures Prop(v, "fields") == FieldsJson(q.fields)
    ensures Prop(v, "metadata") == MetadataJson(q.metadata)
    ensures Prop(v, "truncated") == BoolOpt(q.truncated)
    ensures Prop(v, "totalRows") == OptionalNum(q.totalRows)
  {
    var members := ResultMembers(Arr(RowsToJson(q.data)), FieldsJson(q.fields), MetadataJson(q.metadata),
                                 BoolOpt(q.truncated), OptionalNum(q.totalRows));
    ResultMembersLookup(Arr(RowsToJson(q.data)), FieldsJson(q.fields), MetadataJson(q.metadata),
                        BoolOpt(q.truncated), OptionalNum(q.totalRows), "data");
    ResultMembersLookup(Arr(RowsToJson(q.data)), FieldsJson(q.fields), MetadataJson(q.metadata),
                        BoolOpt(q.truncated), OptionalNum(q.totalRows), "fields");
    ResultMembersLookup(Arr(RowsToJson(q.data)), FieldsJson(q.fields), MetadataJson(q.metadata),
                        BoolOpt(q.truncated), OptionalNum(q.totalRows), "metadata");
    ResultMembersLookup(Arr(RowsToJson(q.data)), FieldsJson(q.fields), MetadataJson(q.metadata),
                        BoolOpt(q.truncated), OptionalNum(q.totalRows), "truncated");
    ResultMembersLookup(Arr(RowsToJson(q.data)), FieldsJson(q.fields), MetadataJson(q.metadata),
                        BoolOpt(q.truncated), OptionalNum(q.totalRows), "totalRows");
    Obj(members)
  }

  /** `data`, then each optional key that is set, in the order the object literal spreads them. */
  function ResultMembers(data: Value, fields: Option<Value>, metadata: Option<Value>,
                         truncated: Option<Value>, totalRows: Option<Value>): seq<Member> {
    [Member("data", data)]
    + (OptionalMember("fields", fields)
    + (OptionalMember("metadata", metadata)
    + (OptionalMember("truncated", truncated)
    + OptionalMember("totalRows", totalRows))))
  }

  /** The object has `data`, and each optional key exactly when its value is set; no other key. */
  lemma ResultMembersLookup(data: Value, fields: Option<Value>, metadata: Option<Value>,
                            truncated: Option<Value>, totalRows: Option<Value>, k: string)
    ensures Lookup(ResultMembers(data, fields, metadata, truncated, totalRows), k)
         == if k == "data" then Some(data)
            else if k == "fields" then fields
            else if k == "metadata" then metadata
            else if k == "truncated" then truncated
            else if k == "totalRows" then totalRows
            else None
  {
    var last := OptionalMember("totalRows", totalRows);
    var t := OptionalMember("truncated", truncated) + last;
    var m := OptionalMember("metadata", metadata) + t;
    var f := OptionalMember("fields", fields) + m;
    var members := ResultMembers(data, fields, metadata, truncated, totalRows);
    if k != "data" {
      assert members[1..] == f;
      LookupOptional("fields", fields, m, k);
      LookupOptional("metadata", metadata, t, k);
      LookupOptional("truncated", truncated, last, k);
      assert last == OptionalMember("totalRows", totalRows) + [];
      LookupOptional("totalRows", totalRows, [], k);
    }
  }

  function ToolDefinitionToJson(t: ToolDefinition): Value {
    Obj([Member("name", Str(t.name)), Member("description", Str(t.description)), Member("inputSchema", t.inputSchema)])
  }

  function ToolDefinitionsToJson(ts: seq<ToolDefinition>): (r: seq<Value>)
    ensures |r| == |ts|
  {
    seq(|ts|, i requires 0 <= i < |ts| => ToolDefinitionToJson(ts[i]))
  }

  function ResourceDefinitionToJson(d: ResourceDefinition): Value {
    Obj([Member("name", Str(d.name)), Member("description", Str(d.description)), Member("uriTemplate", Str(d.uriTemplate))])
  }

  function ResourceDefinitionsToJson(rs: seq<ResourceDefinition>): (r: seq<Value>)
    ensures |r| == |rs|
  {
    seq(|rs|, i requires 0 <= i < |rs| => ResourceDefinitionToJson(rs[i]))
  }

  /** Looking a key up past a member with another key. */
  lemma LookupPast(m: Member, rest: seq<Member>, k: string)
    requires m.key != k
    ensures Lookup([m] + rest, k) == Lookup(rest, k)
  {
    assert ([m] + rest)[1..] == rest;
  }

  function ServerDefinitionToJson(d: ServerDefinition): (v: Value)
    ensures Prop(v, "name") == Some(Str(d.name)) && Prop(v, "version") == Some(Str(d.version))
    ensures Prop(v, "tools") == Some(Arr(ToolDefinitionsToJson(d.tools)))
    ensures Prop(v, "resources") == Some(Arr(ResourceDefinitionsToJson(d.resources)))
  {
    var name, version := Member("name", Str(d.name)), Member("version", Str(d.version));
    var tools := Member("tools", Arr(ToolDefinitionsToJson(d.tools)));
    var resources := Member("resources", Arr(ResourceDefinitionsToJson(d.resources)));
    LookupPast(tools, [resources], "resources");
    LookupPast(version, [tools] + [resources], "tools");
    LookupPast(version, [tools] + [resources], "resources");
    LookupPast(name, [version] + ([tools] + [resources]), "version");
    LookupPast(name, [version] + ([tools] + [resources]), "tools");
    LookupPast(name, [version] + ([tools] + [resources]), "resources");
    Obj([name] + ([version] + ([tools] + [resources])))
  }
}

=== FILE: wrappers.dfy ===
/** Failure-carrying datatypes shared by the whole model. */
module Wrappers {

  /** A value that may be absent; `None` plays the role of JavaScript's `undefined`. */
  datatype Option<+T> = None | Some(value: T) {
    function GetOr(default: T): T {
      match this
      case Some(v) => v
      case None => default
    }
  }

  /** Either a value or an error; `Err` plays the role of a thrown exception or a rejected promise. */
  datatype Result<+T, +E> = Ok(value: T) | Err(error: E)
}
